=== FILE: README.md ===
# Market-data core of stock-tracker, in Dafny

This project models the C market-data core of the stock tracker and proves
properties of that model. It covers six parts:

- **History cache**: 16 slots keyed by exact symbol, with a 24-hour absolute
  time-to-live. An insert reuses the first empty or expired slot, and otherwise
  evicts the oldest entry. Stored strings are cut to the C buffers: 15
  characters of symbol and 8191 of payload.
- **Market service**: a history lookup that falls back through four steps:
  the cache, a live fetch, a second cache read, and a bundled demo document.
  A quote is derived from a history text by searching for its first two
  `"price":` keys.
- **History augmenter**: it reads the series prices newest-last, computes the
  metrics, and rebuilds the document with the series in its original order
  plus a `metrics` object. Series shorter than two points pass through as a
  verbatim copy.
- **Metrics engine**: Sharpe, Sortino, maximum drawdown and CAGR, computed in
  one pass over the prices.
- **Alpha Vantage adapter**: it sorts failures into return codes (-1, -2, -3,
  -4, -100, -5, -6), parses percentages, and extracts at most 100 daily points
  into a compact history document.
- **Back-end controller**: the `source_to_string` mapping, the zeroed
  fallback quote (always status 200), and the history envelope that splices
  `source` and `fetchedAt` in front of the payload.

## How the model is set up

Everything is immutable values and pure functions. The two exceptions are
the metrics loop and the adapter's extraction loop, which are methods with
loop invariants.

- The static cache array becomes a `Cache` value that operations take and
  return.
- `time(NULL)` becomes an explicit `now`.
- NULL pointers are `Option.None`. An out-parameter is an `Option<Quote>`:
  `None` for a NULL pointer, `Some(q)` for the quote it points to.
- Doubles are `real`. `sqrt`, `pow`, `atof`, the `%.2f` conversion, and the
  value of a quotient by zero are fields of a `FloatLib` record passed in, and
  the model promises nothing about their results.
- The outside world is a parameter:
  - the API key (`getenv`);
  - what `http_get` answers for a URL;
  - the JSON parser (`yyjson_read`);
  - the outcome of the live history fetch.
- A C string is a `string` with one `char` per byte, up to but not including
  its terminating NUL. Every length and buffer limit ("15 characters",
  "8191 characters", "511 characters", `strlen`) counts bytes. Multi-byte
  text such as UTF-8 is therefore not modelled, and neither are strings with
  an embedded NUL; see "## Left out".
- Bytes versus characters: the model counts one `char` per byte. The C code
  truncates and compares bytes, so a non-ASCII symbol whose UTF-8 form is
  longer than 15 bytes is cut mid-text in C while the model counts it as
  fewer characters. A JSON string holding `\u0000` is kept whole by yyjson,
  but the C code cuts it at the NUL wherever it goes through `%s` or
  `strlen` (dates in the adapter, symbol and date in the history rebuild);
  the model's `JStr` keeps it whole. Neither case is modelled.
- JSON values are an abstract datatype. Integers and reals stay distinct, as
  yyjson keeps them, because `yyjson_get_real` answers 0.0 for an integer.

| file | module | models |
|---|---|---|
| common.dfy | Common | `Option`, `strncpy` into a buffer, `strchr` cut, `strstr` search |
| json.dfy | Json | abstract yyjson values, `yyjson_obj_get`, `yyjson_get_str`, `yyjson_get_real` |
| floats.dfy | Floats | uninterpreted libm/libc numerics, C division |
| market.dfy | Market | `struct stock_quote` |
| history_cache.dfy | HistoryCache | c-service/src/cache/history_cache.c |
| market_service.dfy | MarketService | c-service/src/services/market_service.c |
| market_metrics.dfy | MarketMetrics | backend/src/services/market_metrics.c |
| market_history_json.dfy | MarketHistoryJson | c-service/src/services/market_history_json.c |
| alpha_vantage.dfy | AlphaVantage | c-service/src/alpha_vantage.c |
| market_controller.dfy | MarketController | backend/src/controllers/market_controller.c |

The second cache read in `market_service_get_history` is meant as a stale
read, one that would return an expired entry. It calls the same
`history_cache_get` as the first read, with the same time-to-live test. At one
clock it can therefore only hit when the first read did, and a miss stays a
miss at any later clock (`HistoryCache.MissPersists`). So the model, like the
code, goes straight to the demo document whenever the cache misses and the
fetch fails.

## Model

| member | source | states |
|---|---|---|
| Common.Truncate | c-service/src/cache/history_cache.c:78-82 | what `strncpy(buf, s, n)` followed by `buf[n] = '\0'` keeps, that is, an (n+1)-byte buffer such as `symbol[16]` with n = 15: the prefix of the input of length min(length of s, n), the whole input when it fits |
| Common.CutAt | c-service/src/alpha_vantage.c:28-29 | the text before the first `c`: a prefix free of `c`, and the next input character is `c` when it stops early |
| Common.CutAtFirst | c-service/src/alpha_vantage.c:28-29 | cutting `x + [c] + y` at `c` gives exactly `x` when `x` has no `c` |
| Common.CutAtAbsent | c-service/src/alpha_vantage.c:28-29 | a text without `c` is not cut at all |
| Common.Find | c-service/src/services/market_service.c:33-38 | `strstr` from an offset: the lowest match at or after the offset, and `None` only when no match exists there |
| Json.Get | c-service/src/services/market_history_json.c:19-22 | a member lookup answers the first member with that key, and NULL for NULL, for a non-object or for a missing key |
| Json.GetStr | c-service/src/alpha_vantage.c:113-120 | a string value answers its own text; anything else, NULL included, answers NULL |
| Json.GetReal | c-service/src/services/market_history_json.c:42-43 | a real value answers its number; anything else, an integer or NULL included, answers 0.0 |
| HistoryCache.EntryIsValid | c-service/src/cache/history_cache.c:28-41 | a valid entry needs a non-NULL symbol of 1..15 characters (one the buffer can hold), and a valid entry is never one an insert may reuse |
| HistoryCache.FirstValid | c-service/src/cache/history_cache.c:56-60 | the scan returns the lowest slot at or after its start that is valid for the symbol, or reports that none is |
| HistoryCache.Get | c-service/src/cache/history_cache.c:54-63 | a hit is the payload of the lowest slot that is in use, holds exactly the symbol and is younger than 86400 s; a miss means no slot is valid |
| HistoryCache.AnyValid | c-service/src/cache/history_cache.c:43-52 | true exactly when some slot from the start on is valid |
| HistoryCache.IsValid | c-service/src/cache/history_cache.c:43-52 | `is_valid` answers yes exactly when some slot is valid for the symbol |
| HistoryCache.IsValidIffGetHits | c-service/src/cache/history_cache.c:43-63 | `is_valid` answers yes exactly when `get` returns a payload |
| HistoryCache.FirstReusable | c-service/src/cache/history_cache.c:72-87 | the first insert loop finds the lowest slot that is empty or at least 86400 s old, or reports that none is |
| HistoryCache.Oldest | c-service/src/cache/history_cache.c:89-100 | the eviction scan finds a slot with the smallest fetch time, and the lowest such index on ties, because its comparison is strict |
| HistoryCache.Victim | c-service/src/cache/history_cache.c:72-100 | the slot an insert overwrites: the lowest reusable slot when one exists, otherwise the oldest slot with the lowest index on ties |
| HistoryCache.Stamp | c-service/src/cache/history_cache.c:78-84 | a written slot holds a prefix of the symbol of length min(n, 15), a prefix of the payload of length min(n, 8191), and the current time |
| HistoryCache.Set | c-service/src/cache/history_cache.c:65-109 | a NULL symbol or payload leaves the cache unchanged; otherwise only the victim slot changes, and it is stamped now |
| HistoryCache.SetThenGet | c-service/src/cache/history_cache.c:54-84 | round trip: for a 1..15-character symbol with no valid entry, a lookup right after the insert returns the payload cut to 8191 characters |
| HistoryCache.SetKeepsEarlierEntry | c-service/src/cache/history_cache.c:72-87 | an insert does not look for an existing entry: whenever the first valid slot for the symbol lies below the slot the insert overwrites, the next lookup still answers that earlier payload |
| HistoryCache.SetKeepsEarlierEntryExample | c-service/src/cache/history_cache.c:72-87 | an instance: "AAPL" cached in slot 0 keeps answering after an insert at a later time lands in empty slot 1 |
| HistoryCache.MissPersists | c-service/src/cache/history_cache.c:39-40 | a symbol that misses at one time misses at every later time while the cache is not written |
| HistoryCache.UnstorableSymbolMisses | c-service/src/cache/history_cache.c:28-41 | an empty symbol, or one longer than the 15-character buffer, is never found |
| HistoryCache.FullCacheEvictsOldest | c-service/src/cache/history_cache.c:89-108 | when all 16 slots are taken and fresh, the insert replaces the oldest entry (the lowest index on ties) and keeps the other 15 |
| MarketService.ExtractLatestQuote | c-service/src/services/market_service.c:30-49 | extraction succeeds exactly when the text holds two non-overlapping `"price":` keys, and it never changes the symbol |
| MarketService.ExtractedPrices | c-service/src/services/market_service.c:33-46 | latest is the number after the first key, and previous is the number after the first key at least 8 characters later; change is latest minus previous; change percent is change divided by previous, times 100, with no zero guard |
| MarketService.DemoFirstKey | c-service/src/services/market_service.c:13-23 | in the demo document the first `"price":` key is at offset 48 and is followed by 252.10 |
| MarketService.DemoSecondKey | c-service/src/services/market_service.c:13-23 | from offset 56 on, the next key is at 85 and is followed by 258.27 |
| MarketService.DemoQuotePrices | c-service/src/services/market_service.c:13-46 | the demo quote takes 252.10 as latest and 258.27 as previous, the first two entries in document order |
| MarketService.GetHistory | c-service/src/services/market_service.c:56-80 | a cache hit answers the cached payload, issues no fetch and leaves the cache alone; a live payload is stored and the answer is its read-back; a failed fetch leaves the cache untouched and answers the demo document |
| MarketService.LivePayloadIsReadBack | c-service/src/services/market_service.c:70-73 | for a 1..15-character symbol that missed, the answer is the fetched payload cut to 8191 characters |
| MarketService.HistoryNullIff | c-service/src/services/market_service.c:56-80 | the answer is NULL exactly when a live payload arrives for an empty or over-long symbol, whose read-back misses |
| MarketService.GetQuote | c-service/src/services/market_service.c:82-99 | NULL `out` gives -1 before any lookup; a NULL history gives -1 with `out` untouched; otherwise `out` is zeroed and given the symbol cut to 15 characters, the answer is -1 exactly when the history lacks two price keys, and on 0 `out` is the extraction applied to the zeroed quote |
| MarketService.DemoQuote | c-service/src/services/market_service.c:85-98 | with a cache miss and a failed fetch, the quote is 0 and is derived from the demo document's first two prices |
| MarketMetrics.MaxDrawdown | backend/src/services/market_metrics.c:21-39 | the running maximum drawdown is never positive |
| MarketMetrics.MaxDrawdownIsLeast | backend/src/services/market_metrics.c:34-39 | the maximum drawdown is at most every day's drawdown from the running peak, and is 0 or one of them |
| MarketMetrics.PeakIsRunningMax | backend/src/services/market_metrics.c:20-35 | after day i the peak is the largest of the prices of days 0..i |
| MarketMetrics.MaxDrawdownAboveMinusOne | backend/src/services/market_metrics.c:34-39 | with positive prices the maximum drawdown is greater than -1 |
| MarketMetrics.NonDecreasingPeak | backend/src/services/market_metrics.c:34-35 | on a non-decreasing series the peak is always the current price |
| MarketMetrics.MaxDrawdownZeroIffNonDecreasing | backend/src/services/market_metrics.c:34-39 | with positive prices the maximum drawdown is 0 exactly when the series never falls |
| MarketMetrics.SumSquaresBound | backend/src/services/market_metrics.c:23-27 | (count-1) times the sum of squared returns is at least the square of the sum of returns |
| MarketMetrics.VarianceNonNegative | backend/src/services/market_metrics.c:42-44 | the population variance, mean of squares minus squared mean over count-1 returns, is never negative |
| MarketMetrics.ConstantReturnSums | backend/src/services/market_metrics.c:23-27 | when every return equals c, the sums are (n-1)c and (n-1)c² |
| MarketMetrics.EqualReturnsZeroSharpe | backend/src/services/market_metrics.c:42-57 | equal returns give mean c and variance 0, hence Sharpe 0 |
| MarketMetrics.DownCountZeroIff | backend/src/services/market_metrics.c:29-32 | the downside count is 0 exactly when no return is negative |
| MarketMetrics.NoLossZeroSortino | backend/src/services/market_metrics.c:48-62 | with no negative return, Sortino is 0 |
| MarketMetrics.MetricsOf | backend/src/services/market_metrics.c:42-70 | the assembled metrics: maximum drawdown at most 0; Sharpe 0 when variance is at most 0; Sortino 0 when no return is negative |
| MarketMetrics.CagrExponentUsesCount | backend/src/services/market_metrics.c:66-70 | CAGR raises last/first to 252/count, so years counts prices rather than returns |
| MarketMetrics.WorkedExample | backend/src/services/market_metrics.c:23-44 | prices 100, 110, 99, 121 give returns 0.1, -0.1 and 2/9, mean 2/27, one down day and maximum drawdown -0.1 |
| MarketMetrics.Calculate | backend/src/services/market_metrics.c:11-12 | metrics exist exactly for two or more prices |
| MarketMetrics.CalculateMetrics | backend/src/services/market_metrics.c:5-73 | NULL prices, NULL `out` or fewer than two prices give -1 and write nothing; otherwise the one-pass loop writes exactly the metrics defined day by day, and the answer is 0 |
| MarketHistoryJson.ChronologicalPrices | c-service/src/services/market_history_json.c:39-44 | the metrics input is the item prices reversed: element i is the price of item count-1-i |
| MarketHistoryJson.BuildHistoryWithMetrics | c-service/src/services/market_history_json.c:8-112 | NULL input, unparseable text, or a missing or non-array series gives NULL; fewer than two items gives a verbatim copy; otherwise a rebuilt document |
| MarketHistoryJson.BuiltFromMetrics | c-service/src/services/market_history_json.c:33-58 | the rebuilt document is built around the metrics of the reversed prices, so the metrics step never turns two items into NULL |
| MarketHistoryJson.RebuildItemKeepsFields | c-service/src/services/market_history_json.c:72-95 | a rebuilt item keeps its price as a real, and keeps its date exactly when the date is a string |
| MarketHistoryJson.RebuildItemLayout | c-service/src/services/market_history_json.c:72-95 | a rebuilt item has exactly the members date then price when the date is a string, and price alone otherwise |
| MarketHistoryJson.RebuildKeys | c-service/src/services/market_history_json.c:55-104 | the rebuilt root has exactly the members symbol (when a string), series and metrics, in that order |
| MarketHistoryJson.MetricsObjectLayout | c-service/src/services/market_history_json.c:97-104 | the metrics object has exactly the keys sharpe, sortino, maxDrawdown and cagr, in that order |
| MarketHistoryJson.MetricsObjectLookups | c-service/src/services/market_history_json.c:100-104 | each of the four keys holds its metric |
| MarketHistoryJson.RebuildLayout | c-service/src/services/market_history_json.c:55-104 | symbol, series and metrics can each be found again in the rebuilt root |
| MarketHistoryJson.RebuiltSymbol | c-service/src/services/market_history_json.c:60-67 | the output carries the symbol exactly when the input symbol is a string |
| MarketHistoryJson.RebuiltSeries | c-service/src/services/market_history_json.c:69-95 | the output series has the input's length and order, with prices kept and dates kept only when they are strings |
| MarketHistoryJson.RebuiltMetrics | c-service/src/services/market_history_json.c:97-104 | every rebuilt document carries a metrics object with exactly the four metrics of the reversed prices |
| AlphaVantage.Request | c-service/src/alpha_vantage.c:64-105 | a missing key gives -2 with no request; otherwise the URL is requested, and it stops with -3 exactly on a transport failure, -4 exactly on a body that does not parse, -100 exactly on a root with Note, Error Message or Information, and answers the parsed root in every other case |
| AlphaVantage.RequestUrl | c-service/src/alpha_vantage.c:70-78 | the URL is the query text cut to 511 characters: a prefix of it, of length min(n, 511), that starts with the endpoint's query |
| AlphaVantage.PercentText | c-service/src/alpha_vantage.c:22-33 | `atof` sees at most 31 characters, cut at the first '%' |
| AlphaVantage.PercentKeepsUnits | c-service/src/alpha_vantage.c:22-33 | "d%…" is read as `atof(d)`: the value stays in percent units, with no division by 100 |
| AlphaVantage.ParsePercent | c-service/src/alpha_vantage.c:22-33 | the percentage is `atof` of a prefix of the text (the part before the first '%' within 31 characters), and of the whole text when it is short and has no '%' |
| AlphaVantage.PercentWithoutSign | c-service/src/alpha_vantage.c:24-29 | short text without '%' reaches `atof` unchanged |
| AlphaVantage.ReadQuoteTexts | c-service/src/alpha_vantage.c:113-120 | the three quote texts are present exactly when price, change and change percent are all strings, and are then those strings |
| AlphaVantage.GetQuote | c-service/src/alpha_vantage.c:59-132 | NULL symbol or `out` gives -1; a missing key gives -2 before any request; the request goes out exactly when neither applies; then -3 exactly on transport failure, -4 exactly on an unparseable body, -100 exactly on a provider message, -5 exactly when "Global Quote" is missing, -6 exactly when one of its three fields is not a string; every failure leaves `out` untouched; success copies the symbol cut to 15 characters |
| AlphaVantage.QuoteMessageBeforePayload | c-service/src/alpha_vantage.c:92-111 | a provider message gives -100 whatever "Global Quote" holds |
| AlphaVantage.QuoteSuccessIff | c-service/src/alpha_vantage.c:81-128 | success exactly when the parsed reply has no message and its quote's three fields are strings; the numbers are then `atof` of them, with the percentage from `parse_percent` |
| AlphaVantage.Capped | c-service/src/alpha_vantage.c:215-217 | the cap keeps a prefix of min(n, 100) points |
| AlphaVantage.ExtractSeries | c-service/src/alpha_vantage.c:209-242 | the loop keeps the first 100 entries with a string "4. close", in iteration order; skipped entries do not count toward the cap; the printed text is those points, comma-separated |
| AlphaVantage.DailyHistory | c-service/src/alpha_vantage.c:139-252 | NULL symbol, NULL buffer or zero size gives -1; a missing key gives -2 before any request; then -3 exactly on transport failure, -4 exactly on an unparseable body, -100 exactly on a provider message, -5 exactly when "Time Series (Daily)" is not an object; a document is written exactly on success, and it lists exactly the first 100 entries with a string "4. close" (all of them when fewer) |
| AlphaVantage.HistorySuccessIff | c-service/src/alpha_vantage.c:165-248 | success exactly when the parsed reply has no message and "Time Series (Daily)" is an object; the document then lists exactly the first 100 qualifying entries in iteration order, all of them when there are fewer |
| MarketController.SourceToString | backend/src/controllers/market_controller.c:14-22 | LIVE gives "live", CACHE gives "cache", and DEMO or any other value gives "demo" |
| MarketController.SourceRoundTrip | backend/src/controllers/market_controller.c:14-22 | reading the name back gives the enumerator, with anything unknown read as DEMO |
| MarketController.QuoteController | backend/src/controllers/market_controller.c:25-52 | status is always 200; a succeeding service (two price keys in the history) sends the extracted quote; a failing one gives a zeroed quote carrying the requested symbol cut to 15 characters; the body is that quote printed |
| MarketController.QuoteBody | backend/src/controllers/market_controller.c:35-48 | the printed quote fits the 512-byte buffer, and a symbol of at most 15 characters arrives whole right after `{"symbol":"` |
| MarketController.QuoteIgnoresStack | backend/src/controllers/market_controller.c:28-33 | the response does not depend on the uninitialised stack quote |
| MarketController.NatToString | backend/src/controllers/market_controller.c:81-84 | the digits of a non-negative number: one or more decimal digits, no sign |
| MarketController.IntToStringRoundTrip | backend/src/controllers/market_controller.c:81-84 | reading the printed `fetchedAt` back gives the number |
| MarketController.IntTextLength | backend/src/controllers/market_controller.c:81-84 | `%lld` of any 64-bit `fetchedAt` takes at most 20 characters |
| MarketController.EnvelopeHead | backend/src/controllers/market_controller.c:78-84 | the fixed fields take at most 51 characters for any 64-bit `fetchedAt`, and both read back: the source name gives the enumerator (DEMO for unknown values) and the number gives `fetchedAt` |
| MarketController.Envelope | backend/src/controllers/market_controller.c:69-86 | the strlen(inner)+256 buffer always fits, so the envelope is the fixed fields followed by the whole payload |
| MarketController.Inner | backend/src/controllers/market_controller.c:64-69 | one leading '{' is dropped, other payloads are kept whole, and NULL becomes `"series":[]}` |
| MarketController.EnvelopeNeverTruncated | backend/src/controllers/market_controller.c:64-86 | an object payload gets the fields spliced in front of its members, and a NULL payload becomes an empty series |

## Left out

- Concurrency: the static cache array is shared by the server's worker
  threads without a lock. The model is sequential.
- One clock per request: the C code calls `time(NULL)` separately in every
  cache call. The model uses one `now` per request. `HistoryCache.MissPersists`
  covers a later clock for the second read.
- MarketController.QuoteController: the back-end controller calls the back
  end's own `market_service_get_quote`, whose source is not part of this
  model. The c-service quote service (`MarketService.GetQuote`) stands in
  for it, so what the controller sends on success is stated for that
  service.
- MarketService.GetQuote and MarketController.QuoteController: the symbol
  is never NULL in the model. In C, `market_service_get_quote(NULL, out)`
  falls back to the demo document and then passes NULL to `strncpy`
  (market_service.c:88-93), which is undefined behaviour; a quote controller
  called with a NULL symbol reaches the same call. That case is not modelled.
- MarketService.GetHistory: the live fetch is a parameter and not a call into
  the adapter. A NULL symbol is treated as a failed fetch, which is what the
  adapter answers for it.
- Transport and environment: libcurl, `getenv`, the HTTP servers, routes, CORS
  and stderr logging. Their outcomes enter as parameters; logging is not
  modelled.
- yyjson: parsing is a parameter, and the rebuilt document is the abstract
  value and not its serialised text. Failures of `malloc` and `strdup`, each
  of which would give NULL, are not modelled; nor is the history
  controller's 500 response when its `malloc` fails.
- MarketHistoryJson.BuildHistoryWithMetrics: always answers the rebuilt
  document for two or more items. The C code answers NULL when
  `yyjson_mut_write` refuses it, and ordinary input reaches that: a series
  whose oldest price reads as 0.0 (an integer, or a missing "price") makes
  the first return a division by zero, the metrics are then infinite or NaN,
  and the default writer rejects non-finite numbers. The model leaves the
  value of a division by zero unspecified and does not model serialisation.
- Floating point: the values of `sqrt`, `pow`, `atof` and `%.2f`, double
  rounding, `difftime`, and IEEE infinities and NaNs. A quotient by zero is an
  unspecified value.
- MarketMetrics.MetricsOf: Sharpe, Sortino and CAGR are stated only up to the
  uninterpreted `sqrt` and `pow`.
- AlphaVantage.DailyHistory: the model writes the whole document. The C code
  advances its `snprintf` offset by the length it wanted to write. When the
  document does not fit `out_size`, that offset runs past the buffer. This
  offset arithmetic is not modelled.
- AlphaVantage.GetQuote: `strncpy` leaves byte 15 of `out->symbol` as it was
  for long symbols. The model assumes that byte holds a terminator.
- In the abstract JSON every object key is a string, so the extraction loop's
  "date is NULL" skip cannot arise.
- The headers declare other signatures: `market_service_get_history` returning
  a struct and taking `days`, and `market_build_history_with_metrics` taking
  `days`. The model follows the `.c` files. The back end's struct-returning
  history service is not part of this model, so the envelope takes `source`
  and `fetchedAt` as parameters.
- `history_cache_init` (a no-op), the fixed-value quote stub in the c-service
  routes, and the c-service controllers, which pass the service's text through.
- The response writers (`send_json_response`) and the exact `%.2f` digits of
  the quote body.

=== FILE: alpha_vantage.dfy ===
/**
 The Alpha Vantage adapter: the GLOBAL_QUOTE request that fills a quote and
 the TIME_SERIES_DAILY request that writes a compact history document. Both
 classify what went wrong into a return code, in a fixed order: bad arguments,
 no API key, transport failure, unparseable body, a provider message, a
 missing payload, and (quotes only) a payload field that is not a string.

 The environment is a parameter: the API key the process environment holds,
 what the HTTP client answers for a URL, and the JSON parser.
 */
module AlphaVantage {
  import opened Common
  import opened Json
  import opened Floats
  import opened Market

  /** Most daily points one history response keeps (`HISTORY_DAYS`). */
  const HistoryDays: nat := 100

  const Ok: int := 0
  const BadArgument: int := -1
  const NoApiKey: int := -2
  const TransportFailed: int := -3
  const Unparseable: int := -4
  const NoPayload: int := -5
  const BadQuoteField: int := -6
  const ProviderMessage: int := -100

  /** Characters the URL buffer (`char url[512]`) keeps. */
  const UrlMax: nat := 511

  /** Characters the buffer of `parse_percent` (`char buf[32]`) keeps. */
  const PercentMax: nat := 31

  /** What one call sees of the outside world: the value of
      `STOCKC_ALPHA_VANTAGE_KEY`, the body `http_get` returns for a URL
      (`None` for a transport failure) and `yyjson_read` (`None` when the body
      is not JSON). */
  datatype Env = Env(apiKey: Option<string>, http: string -> Option<string>, parse: string -> Option<Json>)

  /** The fixed start of every request URL. */
  const QueryBase: string := "https://www.alphavantage.co/query?function="

  /** The request URL, as `snprintf` leaves it in the 512-byte buffer: the
      whole text when it fits, otherwise its first 511 characters. */
  function RequestUrl(endpoint: string, symbol: string, key: string): (u: string)
    ensures var full := QueryBase + endpoint + "&symbol=" + symbol + "&apikey=" + key;
            && u <= full
            && |u| == Min(|full|, UrlMax)
            && u[..Min(|QueryBase| + |endpoint|, UrlMax)] == (QueryBase + endpoint)[..Min(|QueryBase| + |endpoint|, UrlMax)]
  {
    var full := QueryBase + endpoint + "&symbol=" + symbol + "&apikey=" + key;
    var n := Min(|QueryBase| + |endpoint|, UrlMax);
    var u := Truncate(full, UrlMax);
    assert u[..n] == full[..n];
    assert full[..n] == (QueryBase + endpoint)[..n];
    u
  }

  /** The parsed body `http_get` returns for `url`: `None` when the transport
      fails or the body is not JSON. */
  function Reply(env: Env, url: string): Option<Json>
  {
    if env.http(url).Some? then env.parse(env.http(url).value) else None
  }

  /** The root carries one of the members the provider uses for rate-limit
      notes, errors and informational messages. */
  predicate HasProviderMessage(root: Json)
  {
    || Get(Some(root), "Note").Some?
    || Get(Some(root), "Error Message").Some?
    || Get(Some(root), "Information").Some?
  }

  /** How far a request got once its arguments were accepted: stopped with a
      code (`requested` is the URL fetched, if the request went out), or a
      parsed root free of provider messages. */
  datatype Stage =
    | Stopped(rc: int, requested: Option<string>)
    | Answered(root: Json, url: string)

  /** The steps both requests share after their argument checks. */
  function Request(env: Env, endpoint: string, symbol: string): (s: Stage)
    ensures s.Stopped? ==> s.rc in {NoApiKey, TransportFailed, Unparseable, ProviderMessage}
    ensures s.Stopped? ==> (s.rc == NoApiKey <==> s.requested.None?)
    ensures s.Stopped? && s.rc == NoApiKey <==> env.apiKey.None?
    ensures env.apiKey.Some? ==>
              var url := RequestUrl(endpoint, symbol, env.apiKey.value);
              && (s.Stopped? ==> s.requested == Some(url))
              && (s.Answered? ==> s.url == url && env.http(url).Some? && env.parse(env.http(url).value) == Some(s.root))
              && (s.Stopped? && s.rc == TransportFailed <==> env.http(url).None?)
              && (s.Stopped? && s.rc == Unparseable <==> env.http(url).Some? && Reply(env, url).None?)
              && (s.Stopped? && s.rc == ProviderMessage <==> Reply(env, url).Some? && HasProviderMessage(Reply(env, url).value))
              && (s.Answered? <==> Reply(env, url).Some? && !HasProviderMessage(Reply(env, url).value))
              && (s.Answered? ==> Some(s.root) == Reply(env, url))
    ensures s.Answered? ==> !HasProviderMessage(s.root)
  {
    if env.apiKey.None? then Stopped(NoApiKey, None)
    else
      var url := RequestUrl(endpoint, symbol, env.apiKey.value);
      match env.http(url)
      case None => Stopped(TransportFailed, Some(url))
      case Some(body) =>
        match env.parse(body)
        case None => Stopped(Unparseable, Some(url))
        case Some(root) =>
          if HasProviderMessage(root) then Stopped(ProviderMessage, Some(url))
          else Answered(root, url)
  }

  // ---------------------------------------------------------------------
  // parse_percent
  // ---------------------------------------------------------------------

  /** The text `parse_percent` hands to `atof`: at most 31 characters, cut
      at the first '%'. */
  function PercentText(s: string): (t: string)
    ensures t <= s
    ensures |t| <= PercentMax
    ensures '%' !in t
    ensures |t| < Min(|s|, PercentMax) ==> s[|t|] == '%'
  {
    CutAt(Truncate(s, PercentMax), '%')
  }

  /** `parse_percent` (which always returns 0): the percentage as written,
      not divided by 100. */
  function ParsePercent(lib: FloatLib, s: string): (v: real)
    ensures v == lib.atof(s[..|PercentText(s)|])
    ensures '%' !in s && |s| <= PercentMax ==> v == lib.atof(s)
  {
    var t := PercentText(s);
    assert t == s[..|t|];
    if '%' !in s && |s| <= PercentMax then
      PercentWithoutSign(s);
      lib.atof(t)
    else lib.atof(t)
  }

  /** A provider percentage such as "1.2345%" is read as the number before
      the sign, in percent units. */
  lemma PercentKeepsUnits(lib: FloatLib, digits: string, rest: string)
    requires '%' !in digits && |digits| < PercentMax
    ensures PercentText(digits + "%" + rest) == digits
    ensures ParsePercent(lib, digits + "%" + rest) == lib.atof(digits)
  {
    var s := digits + "%" + rest;
    var cut := Truncate(s, PercentMax);
    var y := cut[|digits| + 1..];
    assert cut[..|digits| + 1] == s[..|digits| + 1] == digits + "%";
    assert cut == cut[..|digits| + 1] + y;
    CutAtFirst(digits, '%', y);
  }

  /** Text without a '%' that fits the buffer reaches `atof` unchanged. */
  lemma PercentWithoutSign(s: string)
    requires '%' !in s && |s| <= PercentMax
    ensures PercentText(s) == s
  {
    CutAtAbsent(s, '%');
  }

  // ---------------------------------------------------------------------
  // Quote
  // ---------------------------------------------------------------------

  /** The three texts a quote is read from, when all three are strings. */
  datatype QuoteTexts = QuoteTexts(price: string, change: string, percent: string)

  function ReadQuoteTexts(quote: Option<Json>): (r: Option<QuoteTexts>)
    ensures r.Some? <==>
              && GetStr(Get(quote, "05. price")).Some?
              && GetStr(Get(quote, "09. change")).Some?
              && GetStr(Get(quote, "10. change percent")).Some?
    ensures r.Some? ==>
              && Get(quote, "05. price") == Some(JStr(r.value.price))
              && Get(quote, "09. change") == Some(JStr(r.value.change))
              && Get(quote, "10. change percent") == Some(JStr(r.value.percent))
  {
    var price := GetStr(Get(quote, "05. price"));
    var change := GetStr(Get(quote, "09. change"));
    var percent := GetStr(Get(quote, "10. change percent"));
    if price.None? || change.None? || percent.None? then None
    else Some(QuoteTexts(price.value, change.value, percent.value))
  }

  /** What `alpha_vantage_get_quote` answers: its return code, the quote
      `out` points to afterwards (`None` for a NULL `out`) and the URL it
      requested, if any. */
  datatype QuoteCall = QuoteCall(rc: int, out: Option<Quote>, requested: Option<string>)

  /** `alpha_vantage_get_quote`. Every failure leaves `out` as it was; on
      success the three numbers are read and the symbol copied into it. */
  function GetQuote(lib: FloatLib, symbol: Option<string>, out: Option<Quote>, env: Env): (r: QuoteCall)
    ensures r.rc in {Ok, BadArgument, NoApiKey, TransportFailed, Unparseable, ProviderMessage, NoPayload, BadQuoteField}
    ensures r.rc == BadArgument <==> symbol.None? || out.None?
    ensures r.rc == NoApiKey <==> symbol.Some? && out.Some? && env.apiKey.None?
    ensures r.requested.Some? <==> r.rc != BadArgument && r.rc != NoApiKey
    ensures r.rc != Ok ==> r.out == out
    ensures r.rc == Ok ==> r.out.Some? && r.out.value.symbol == Truncate(symbol.value, QuoteSymbolMax)
    ensures symbol.Some? && out.Some? && env.apiKey.Some? ==>
              var url := RequestUrl("GLOBAL_QUOTE", symbol.value, env.apiKey.value);
              var root := Reply(env, url);
              && (r.rc == TransportFailed <==> env.http(url).None?)
              && (r.rc == Unparseable <==> env.http(url).Some? && root.None?)
              && (r.rc == ProviderMessage <==> root.Some? && HasProviderMessage(root.value))
              && (r.rc == NoPayload <==> root.Some? && !HasProviderMessage(root.value) && Get(root, "Global Quote").None?)
              && (r.rc == BadQuoteField <==>
                    && root.Some? && !HasProviderMessage(root.value) && Get(root, "Global Quote").Some?
                    && ReadQuoteTexts(Get(root, "Global Quote")).None?)
  {
    if symbol.None? || out.None? then QuoteCall(BadArgument, out, None)
    else
      match Request(env, "GLOBAL_QUOTE", symbol.value)
      case Stopped(rc, requested) => QuoteCall(rc, out, requested)
      case Answered(root, url) =>
        var quote := Get(Some(root), "Global Quote");
        if quote.None? then QuoteCall(NoPayload, out, Some(url))
        else
          match ReadQuoteTexts(quote)
          case None => QuoteCall(BadQuoteField, out, Some(url))
          case Some(t) =>
            var q := out.value.(price := lib.atof(t.price), change := lib.atof(t.change),
                                changePercent := ParsePercent(lib, t.percent),
                                symbol := Truncate(symbol.value, QuoteSymbolMax));
            QuoteCall(Ok, Some(q), Some(url))
  }

  /** A provider message wins over the payload: a root with a "Note",
      "Error Message" or "Information" member gives -100 whatever its
      "Global Quote" holds. */
  lemma QuoteMessageBeforePayload(lib: FloatLib, symbol: string, out: Quote, env: Env, root: Json)
    requires env.apiKey.Some?
    requires var body := env.http(RequestUrl("GLOBAL_QUOTE", symbol, env.apiKey.value));
             body.Some? && env.parse(body.value) == Some(root)
    requires HasProviderMessage(root)
    ensures GetQuote(lib, Some(symbol), Some(out), env).rc == ProviderMessage
  {
  }

  /** The quote succeeds exactly when the parsed reply has no provider
      message and its "Global Quote" holds the price, change and change
      percent as strings; the numbers are then `atof` of those strings, the
      percentage in percent units. */
  lemma QuoteSuccessIff(lib: FloatLib, symbol: string, out: Quote, env: Env)
    requires env.apiKey.Some?
    ensures var url := RequestUrl("GLOBAL_QUOTE", symbol, env.apiKey.value);
            var r := GetQuote(lib, Some(symbol), Some(out), env);
            r.rc == Ok <==>
              && env.http(url).Some?
              && env.parse(env.http(url).value).Some?
              && !HasProviderMessage(env.parse(env.http(url).value).value)
              && ReadQuoteTexts(Get(env.parse(env.http(url).value), "Global Quote")).Some?
    ensures var url := RequestUrl("GLOBAL_QUOTE", symbol, env.apiKey.value);
            var r := GetQuote(lib, Some(symbol), Some(out), env);
            r.rc == Ok ==>
              var t := ReadQuoteTexts(Get(env.parse(env.http(url).value), "Global Quote")).value;
              r.out == Some(Quote(Truncate(symbol, QuoteSymbolMax), lib.atof(t.price), lib.atof(t.change), ParsePercent(lib, t.percent)))
  {
  }

  // ---------------------------------------------------------------------
  // Daily history
  // ---------------------------------------------------------------------

  /** One point the history keeps: a date key and its "4. close" text. */
  datatype Point = Point(date: string, close: string)

  /** The "4. close" text of one daily entry, when it is a string. */
  function CloseText(entry: Json): Option<string>
  {
    GetStr(Get(Some(entry), "4. close"))
  }

  /** Reference for the extraction loop: every entry of the daily series, in
      iteration order, whose value carries a string "4. close"; no cap. */
  function Points(members: seq<(string, Json)>): (r: seq<Point>)
    ensures |r| <= |members|
  {
    if |members| == 0 then []
    else
      var close := CloseText(members[0].1);
      (if close.Some? then [Point(members[0].0, close.value)] else []) + Points(members[1..])
  }

  lemma {:induction false} PointsAppend(a: seq<(string, Json)>, b: seq<(string, Json)>)
    ensures Points(a + b) == Points(a) + Points(b)
  {
    if |a| > 0 {
      assert (a + b)[1..] == a[1..] + b;
      PointsAppend(a[1..], b);
    } else {
      assert a + b == b;
    }
  }

  /** At most the first `HistoryDays` points. */
  function Capped(pts: seq<Point>): (r: seq<Point>)
    ensures r <= pts && |r| == Min(|pts|, HistoryDays)
  {
    if |pts| <= HistoryDays then pts else pts[..HistoryDays]
  }

  /** One point as the loop prints it, preceded by a comma unless first. */
  function PointText(lib: FloatLib, p: Point, first: bool): string
  {
    (if first then "" else ",") + "{\"date\":\"" + p.date + "\",\"price\":" + lib.fixed2(lib.atof(p.close)) + "}"
  }

  /** The series array's contents for `pts`, printed in order. */
  function SeriesText(lib: FloatLib, pts: seq<Point>): string
  {
    if |pts| == 0 then ""
    else SeriesText(lib, pts[..|pts| - 1]) + PointText(lib, pts[|pts| - 1], |pts| == 1)
  }

  /** The whole document the history request writes for `symbol`. */
  function HistoryText(lib: FloatLib, symbol: string, pts: seq<Point>): string
  {
    "{\"symbol\":\"" + symbol + "\",\"series\":[" + SeriesText(lib, pts) + "]}"
  }

  /** The extraction loop of `alpha_vantage_get_daily_history_json`: it
      walks the entries in order, skips those without a string close, and
      stops once `HistoryDays` points are printed. It yields the first
      `HistoryDays` points of the uncapped reference, and their text. */
  method ExtractSeries(lib: FloatLib, members: seq<(string, Json)>) returns (pts: seq<Point>, text: string)
    ensures pts == Capped(Points(members))
    ensures text == SeriesText(lib, pts)
  {
    pts := [];
    text := "";
    var i := 0;
    while i < |members| && |pts| < HistoryDays
      invariant 0 <= i <= |members|
      invariant pts == Points(members[..i])
      invariant |pts| <= HistoryDays
      invariant text == SeriesText(lib, pts)
    {
      var close := CloseText(members[i].1);
      if close.Some? {
        var p := Point(members[i].0, close.value);
        text := text + PointText(lib, p, |pts| == 0);
        assert (pts + [p])[..|pts|] == pts;
        pts := pts + [p];
      }
      PointsAppend(members[..i], [members[i]]);
      assert members[..i + 1] == members[..i] + [members[i]];
      i := i + 1;
    }
    PointsAppend(members[..i], members[i..]);
    assert members[..i] + members[i..] == members;
  }

  /** What `alpha_vantage_get_daily_history_json` answers: its return code,
      the document written to `out_json` (nothing is written on failure) and
      the URL it requested, if any. */
  datatype HistoryCall = HistoryCall(rc: int, json: Option<string>, requested: Option<string>)

  /** `alpha_vantage_get_daily_history_json`; `hasOut` says whether
      `out_json` is non-NULL. */
  function DailyHistory(lib: FloatLib, symbol: Option<string>, hasOut: bool, outSize: nat, env: Env): (r: HistoryCall)
    ensures r.rc in {Ok, BadArgument, NoApiKey, TransportFailed, Unparseable, ProviderMessage, NoPayload}
    ensures r.rc == BadArgument <==> symbol.None? || !hasOut || outSize == 0
    ensures r.rc == NoApiKey <==> symbol.Some? && hasOut && outSize > 0 && env.apiKey.None?
    ensures r.requested.Some? <==> r.rc != BadArgument && r.rc != NoApiKey
    ensures r.json.Some? <==> r.rc == Ok
    ensures symbol.Some? && hasOut && outSize > 0 && env.apiKey.Some? ==>
              var url := RequestUrl("TIME_SERIES_DAILY", symbol.value, env.apiKey.value);
              var root := Reply(env, url);
              && (r.rc == TransportFailed <==> env.http(url).None?)
              && (r.rc == Unparseable <==> env.http(url).Some? && root.None?)
              && (r.rc == ProviderMessage <==> root.Some? && HasProviderMessage(root.value))
              && (r.rc == NoPayload <==> root.Some? && !HasProviderMessage(root.value) && !IsObj(Get(root, "Time Series (Daily)")))
              && (r.rc == Ok ==>
                    r.json == Some(HistoryText(lib, symbol.value, Capped(Points(Get(root, "Time Series (Daily)").value.members)))))
  {
    if symbol.None? || !hasOut || outSize == 0 then HistoryCall(BadArgument, None, None)
    else
      match Request(env, "TIME_SERIES_DAILY", symbol.value)
      case Stopped(rc, requested) => HistoryCall(rc, None, requested)
      case Answered(root, url) =>
        var series := Get(Some(root), "Time Series (Daily)");
        if !IsObj(series) then HistoryCall(NoPayload, None, Some(url))
        else HistoryCall(Ok, Some(HistoryText(lib, symbol.value, Capped(Points(series.value.members)))), Some(url))
  }

  /** The history succeeds exactly when the parsed reply has no provider
      message and its "Time Series (Daily)" is an object; the document then
      lists exactly the first 100 qualifying entries in iteration order (all
      of them when there are fewer), which is what `ExtractSeries` computes. */
  lemma HistorySuccessIff(lib: FloatLib, symbol: string, outSize: nat, env: Env)
    requires outSize > 0 && env.apiKey.Some?
    ensures var url := RequestUrl("TIME_SERIES_DAILY", symbol, env.apiKey.value);
            var r := DailyHistory(lib, Some(symbol), true, outSize, env);
            r.rc == Ok <==>
              && env.http(url).Some?
              && env.parse(env.http(url).value).Some?
              && !HasProviderMessage(env.parse(env.http(url).value).value)
              && IsObj(Get(env.parse(env.http(url).value), "Time Series (Daily)"))
    ensures var url := RequestUrl("TIME_SERIES_DAILY", symbol, env.apiKey.value);
            var r := DailyHistory(lib, Some(symbol), true, outSize, env);
            r.rc == Ok ==>
              var members := Get(env.parse(env.http(url).value), "Time Series (Daily)").value.members;
              r.json == Some(HistoryText(lib, symbol, Capped(Points(members))))
  {
  }
}

=== FILE: common.dfy ===
/**
 Shared vocabulary of the market-data model: an Option type standing in for
 C's NULL pointers, and the handful of C string routines the service relies on
 (`strncpy` into a fixed buffer, `strchr` cut, `strstr` search), stated over
 `string` = `seq<char>`. A C string is modelled by its characters up to (not
 including) its terminating NUL.
 */
module Common {

  /** `None` plays the role of a NULL pointer; `Some(v)` a pointer to `v`. */
  datatype Option<+T> = None | Some(value: T)

  function Min(a: int, b: int): int
  {
    if a <= b then a else b
  }

  /** The text a `strncpy(buf, s, n)` followed by `buf[n] = '\0'` keeps:
      at most `n` characters, and all of `s` when it fits. */
  function Truncate(s: string, n: nat): (r: string)
    ensures r <= s
    ensures |r| == Min(|s|, n)
  {
    if |s| <= n then s else s[..n]
  }

  /** What `p = strchr(buf, c); if (p) *p = '\0';` leaves in `buf`:
      the longest prefix of `s` that does not contain `c`. */
  function CutAt(s: string, c: char): (r: string)
    ensures r <= s
    ensures c !in r
    ensures |r| < |s| ==> s[|r|] == c
  {
    if |s| == 0 || s[0] == c then "" else [s[0]] + CutAt(s[1..], c)
  }

  /** Cutting at `c` keeps all of a text that does not contain `c`. */
  lemma {:induction false} CutAtAbsent(s: string, c: char)
    requires c !in s
    ensures CutAt(s, c) == s
  {
    if |s| > 0 {
      CutAtAbsent(s[1..], c);
      assert [s[0]] + s[1..] == s;
    }
  }

  /** Cutting at `c` stops at its first occurrence. */
  lemma {:induction false} CutAtFirst(x: string, c: char, y: string)
    requires c !in x
    ensures CutAt(x + [c] + y, c) == x
  {
    if |x| > 0 {
      assert (x + [c] + y)[1..] == x[1..] + [c] + y;
      CutAtFirst(x[1..], c, y);
      assert [x[0]] + x[1..] == x;
    }
  }

  /** `pat` occurs in `text` starting at index `k`. */
  predicate OccursAt(text: string, pat: string, k: nat)
  {
    k + |pat| <= |text| && text[k..k + |pat|] == pat
  }

  /** `strstr(text + from, pat)`, reported as an index into `text`:
      the first occurrence of `pat` at or after `from`, if any. */
  function Find(text: string, pat: string, from: nat): (r: Option<nat>)
    requires from <= |text|
    ensures r.Some? ==> from <= r.value && OccursAt(text, pat, r.value)
    ensures r.Some? ==> forall k :: from <= k < r.value ==> !OccursAt(text, pat, k)
    ensures r.None? ==> forall k :: from <= k ==> !OccursAt(text, pat, k)
    decreases |text| - from
  {
    if OccursAt(text, pat, from) then Some(from)
    else if from + |pat| >= |text| then None
    else Find(text, pat, from + 1)
  }

  /** A match at `k` with none between `from` and `k` is what `Find` reports. */
  lemma FindAt(text: string, pat: string, from: nat, k: nat)
    requires from <= k && OccursAt(text, pat, k)
    requires forall j :: from <= j < k ==> !OccursAt(text, pat, j)
    ensures Find(text, pat, from) == Some(k)
  {
  }

  /** A match found inside `u` is still the first one after text is appended. */
  lemma FindExtend(u: string, v: string, pat: string, from: nat)
    requires from <= |u|
    requires Find(u, pat, from).Some?
    ensures Find(u + v, pat, from) == Find(u, pat, from)
  {
    var k := Find(u, pat, from).value;
    assert (u + v)[k..k + |pat|] == u[k..k + |pat|];
    forall j | from <= j < k
      ensures !OccursAt(u + v, pat, j)
    {
      assert !OccursAt(u, pat, j);
      assert (u + v)[j..j + |pat|] == u[j..j + |pat|];
    }
    FindAt(u + v, pat, from, k);
  }

  /** When `y` starts with `pat` and the second character of `pat` does not
      occur in `x` from `from` on, the first match in `x + y` at or after
      `from` is where `y` begins. */
  lemma FindAtJoin(x: string, y: string, pat: string, from: nat)
    requires from <= |x|
    requires 2 <= |pat| <= |y| && y[..|pat|] == pat && pat[0] != pat[1]
    requires pat[1] !in x[from..]
    ensures Find(x + y, pat, from) == Some(|x|)
  {
    var t := x + y;
    assert t[|x|..|x| + |pat|] == y[..|pat|];
    forall j | from <= j < |x|
      ensures !OccursAt(t, pat, j)
    {
      var c := t[j + 1];
      if j + 1 < |x| {
        assert c == x[from..][j + 1 - from];
      } else {
        assert c == y[0];
      }
      if j + |pat| <= |t| {
        assert t[j..j + |pat|][1] == c;
      }
    }
    FindAt(t, pat, from, |x|);
  }
}

=== FILE: floats.dfy ===
/**
 C doubles are modelled as Dafny `real`. The C library routines whose values
 the model does not fix — `sqrt`, `pow`, `atof`, the `%.2f` conversion of
 `printf` — and the value of a quotient by zero (an infinity or NaN in IEEE
 arithmetic) are left uninterpreted: every operation that needs them receives
 a `FloatLib` record and promises nothing about what its fields return.
 */
module Floats {

  datatype FloatLib = FloatLib(
    sqrt: real -> real,
    pow: (real, real) -> real,
    atof: string -> real,
    fixed2: real -> string,  // the text `printf("%.2f", x)` writes
    divZero: real -> real)   // what `a / 0.0` evaluates to

  /** The C quotient `a / b` on doubles. */
  function Div(lib: FloatLib, a: real, b: real): real
  {
    if b == 0.0 then lib.divZero(a) else a / b
  }
}

=== FILE: history_cache.dfy ===
/**
 The history cache of the C service: a fixed array of 16 slots, each holding a
 symbol (at most 15 characters, the `char[16]` buffer), the time it was fetched
 and a JSON payload (at most 8191 characters, the `char[8192]` buffer). Lookups
 match the symbol exactly and honour an absolute 24-hour time-to-live; inserts
 reuse the first empty or expired slot, otherwise evict the oldest entry.

 The process-wide static array becomes an immutable `Cache` value that
 operations take and return, and the clock (`time(NULL)`) becomes `now`.
 */
module HistoryCache {
  import opened Common

  const Capacity: nat := 16
  const TtlSeconds: int := 60 * 60 * 24
  const SymbolMax: nat := 15
  const PayloadMax: nat := 8191

  type SymbolText = s: string | |s| <= SymbolMax
  type PayloadText = s: string | |s| <= PayloadMax

  /** One `struct history_cache_entry`; a slot whose symbol is empty is unused. */
  datatype Slot = Slot(symbol: SymbolText, fetchedAt: int, json: PayloadText)

  /** The zero-initialised slot every array element starts as. */
  const EmptySlot: Slot := Slot("", 0, "")

  type Cache = c: seq<Slot> | |c| == Capacity witness seq(Capacity, _ => EmptySlot)

  const Initial: Cache := seq(Capacity, _ => EmptySlot)

  /** `entry_is_valid`: the slot is in use, holds exactly `symbol`, and is
      younger than the time-to-live. A NULL symbol matches nothing. */
  predicate EntryIsValid(e: Slot, symbol: Option<string>, now: int)
    ensures EntryIsValid(e, symbol, now) ==> symbol.Some? && 1 <= |symbol.value| <= SymbolMax
    ensures EntryIsValid(e, symbol, now) ==> !Reusable(e, now)
  {
    && symbol.Some?
    && e.symbol != ""
    && e.symbol == symbol.value
    && now - e.fetchedAt < TtlSeconds
  }

  /** The test of the first insert loop: the slot is unused or expired. */
  predicate Reusable(e: Slot, now: int)
  {
    e.symbol == "" || now - e.fetchedAt >= TtlSeconds
  }

  /** The scan of `history_cache_get`: the first slot at or after `from` that
      is valid for `symbol`. */
  function FirstValid(c: Cache, symbol: Option<string>, now: int, from: nat): (r: Option<nat>)
    requires from <= Capacity
    ensures r.Some? ==> from <= r.value < Capacity && EntryIsValid(c[r.value], symbol, now)
    ensures r.Some? ==> forall j :: from <= j < r.value ==> !EntryIsValid(c[j], symbol, now)
    ensures r.None? ==> forall j :: from <= j < Capacity ==> !EntryIsValid(c[j], symbol, now)
    decreases Capacity - from
  {
    if from == Capacity then None
    else if EntryIsValid(c[from], symbol, now) then Some(from)
    else FirstValid(c, symbol, now, from + 1)
  }

  /** `history_cache_get`: the payload of the first valid slot for `symbol`,
      or NULL. */
  function Get(c: Cache, symbol: Option<string>, now: int): (r: Option<PayloadText>)
    ensures r.Some? ==> exists i :: 0 <= i < Capacity && EntryIsValid(c[i], symbol, now) && c[i].json == r.value
                                    && forall j :: 0 <= j < i ==> !EntryIsValid(c[j], symbol, now)
    ensures r.None? <==> forall i :: 0 <= i < Capacity ==> !EntryIsValid(c[i], symbol, now)
  {
    match FirstValid(c, symbol, now, 0)
    case None => None
    case Some(i) => Some(c[i].json)
  }

  /** The scan of `history_cache_is_valid`, which stops at the first valid slot. */
  function AnyValid(c: Cache, symbol: Option<string>, now: int, from: nat): (r: bool)
    requires from <= Capacity
    ensures r <==> exists j :: from <= j < Capacity && EntryIsValid(c[j], symbol, now)
    decreases Capacity - from
  {
    if from == Capacity then false
    else if EntryIsValid(c[from], symbol, now) then true
    else AnyValid(c, symbol, now, from + 1)
  }

  /** `history_cache_is_valid`. */
  function IsValid(c: Cache, symbol: Option<string>, now: int): (r: bool)
    ensures r <==> exists i :: 0 <= i < Capacity && EntryIsValid(c[i], symbol, now)
  {
    AnyValid(c, symbol, now, 0)
  }

  /** `is_valid` and `get` apply the same test: one answers yes exactly when
      the other returns a payload. */
  lemma IsValidIffGetHits(c: Cache, symbol: Option<string>, now: int)
    ensures IsValid(c, symbol, now) <==> Get(c, symbol, now).Some?
  {
    if IsValid(c, symbol, now) {
      var j :| 0 <= j < Capacity && EntryIsValid(c[j], symbol, now);
      assert Get(c, symbol, now).Some?;
    }
  }

  /** The first insert loop: the lowest reusable slot at or after `from`. */
  function FirstReusable(c: Cache, now: int, from: nat): (r: Option<nat>)
    requires from <= Capacity
    ensures r.Some? ==> from <= r.value < Capacity && Reusable(c[r.value], now)
    ensures r.Some? ==> forall j :: from <= j < r.value ==> !Reusable(c[j], now)
    ensures r.None? ==> forall j :: from <= j < Capacity ==> !Reusable(c[j], now)
    decreases Capacity - from
  {
    if from == Capacity then None
    else if Reusable(c[from], now) then Some(from)
    else FirstReusable(c, now, from + 1)
  }

  /** The eviction loop: `best` is the slot chosen among `c[..i]`; the strict
      `<` keeps the lowest index among equally old slots. */
  function Oldest(c: Cache, i: nat, best: nat): (r: nat)
    requires best < i <= Capacity
    requires forall j :: 0 <= j < i ==> c[best].fetchedAt <= c[j].fetchedAt
    requires forall j :: 0 <= j < best ==> c[j].fetchedAt > c[best].fetchedAt
    ensures r < Capacity
    ensures forall j :: 0 <= j < Capacity ==> c[r].fetchedAt <= c[j].fetchedAt
    ensures forall j :: 0 <= j < r ==> c[j].fetchedAt > c[r].fetchedAt
    decreases Capacity - i
  {
    if i == Capacity then best
    else if c[i].fetchedAt < c[best].fetchedAt then Oldest(c, i + 1, i)
    else Oldest(c, i + 1, best)
  }

  /** The slot `history_cache_set` overwrites: the lowest unused-or-expired
      slot when there is one; otherwise the slot with the smallest fetch time,
      the lowest such index on ties. */
  function Victim(c: Cache, now: int): (r: nat)
    ensures r < Capacity
    ensures (exists j :: 0 <= j < Capacity && Reusable(c[j], now)) ==>
              Reusable(c[r], now) && forall j :: 0 <= j < r ==> !Reusable(c[j], now)
    ensures (forall j :: 0 <= j < Capacity ==> !Reusable(c[j], now)) ==>
              (forall j :: 0 <= j < Capacity ==> c[r].fetchedAt <= c[j].fetchedAt)
              && (forall j :: 0 <= j < r ==> c[j].fetchedAt > c[r].fetchedAt)
  {
    match FirstReusable(c, now, 0)
    case Some(i) => i
    case None => Oldest(c, 1, 0)
  }

  /** The slot written for `symbol` and `json` at time `now`, both strings cut
      to their buffers as `strncpy` does. */
  function Stamp(symbol: string, json: string, now: int): (e: Slot)
    ensures e.symbol <= symbol && e.json <= json && e.fetchedAt == now
    ensures |symbol| <= SymbolMax ==> e.symbol == symbol
    ensures |json| <= PayloadMax ==> e.json == json
    ensures |e.symbol| == Min(|symbol|, SymbolMax) && |e.json| == Min(|json|, PayloadMax)
  {
    Slot(Truncate(symbol, SymbolMax), now, Truncate(json, PayloadMax))
  }

  /** `history_cache_set`: a NULL argument leaves the cache as it was;
      otherwise exactly the victim slot is replaced by the new stamped entry
      and every other slot is unchanged. */
  function Set(c: Cache, symbol: Option<string>, json: Option<string>, now: int): (r: Cache)
    ensures symbol.None? || json.None? ==> r == c
    ensures symbol.Some? && json.Some? ==>
              && r[Victim(c, now)] == Stamp(symbol.value, json.value, now)
              && forall j :: 0 <= j < Capacity && j != Victim(c, now) ==> r[j] == c[j]
  {
    if symbol.None? || json.None? then c
    else c[Victim(c, now) := Stamp(symbol.value, json.value, now)]
  }

  /** Round trip: storing a payload for a symbol that fits its buffer and has
      no valid entry yet makes the next lookup at the same time return that
      payload, cut to 8191 characters. */
  lemma SetThenGet(c: Cache, s: string, json: string, now: int)
    requires 1 <= |s| <= SymbolMax
    requires Get(c, Some(s), now).None?
    ensures Get(Set(c, Some(s), Some(json), now), Some(s), now) == Some(Truncate(json, PayloadMax))
  {
    var r := Set(c, Some(s), Some(json), now);
    var v := Victim(c, now);
    assert EntryIsValid(r[v], Some(s), now);
    forall j | 0 <= j < Capacity && j != v
      ensures !EntryIsValid(r[j], Some(s), now)
    {
      assert r[j] == c[j];
    }
    var i :| 0 <= i < Capacity && EntryIsValid(r[i], Some(s), now) && r[i].json == Get(r, Some(s), now).value;
    assert i == v;
  }

  /** `set` does not look for an existing entry of the same symbol: when a
      valid entry sits in a lower slot than the one the insert overwrites,
      the next lookup still answers that earlier entry's payload. */
  lemma SetKeepsEarlierEntry(c: Cache, s: string, json: string, now: int, i: nat)
    requires FirstValid(c, Some(s), now, 0) == Some(i) && i < Victim(c, now)
    ensures Get(Set(c, Some(s), Some(json), now), Some(s), now) == Some(c[i].json)
  {
    var r := Set(c, Some(s), Some(json), now);
    assert r[i] == c[i];
    forall j | 0 <= j < i
      ensures !EntryIsValid(r[j], Some(s), now)
    {
      assert r[j] == c[j];
    }
    assert FirstValid(r, Some(s), now, 0) == Some(i) by {
      FirstValidIs(r, Some(s), now, 0, i);
    }
  }

  /** `i` is the answer of the scan from `from` when it is valid and no slot
      between them is. */
  lemma {:induction false} FirstValidIs(c: Cache, symbol: Option<string>, now: int, from: nat, i: nat)
    requires from <= i < Capacity && EntryIsValid(c[i], symbol, now)
    requires forall j :: from <= j < i ==> !EntryIsValid(c[j], symbol, now)
    ensures FirstValid(c, symbol, now, from) == Some(i)
    decreases i - from
  {
    if from < i {
      FirstValidIs(c, symbol, now, from + 1, i);
    }
  }

  /** An instance: "AAPL" cached in slot 0 at time 100 and the insert at
      time 200 landing in the empty slot 1. */
  lemma SetKeepsEarlierEntryExample()
    ensures
      var before := Initial[0 := Slot("AAPL", 100, "old")];
      Get(Set(before, Some("AAPL"), Some("new"), 200), Some("AAPL"), 200) == Some("old")
  {
    var before := Initial[0 := Slot("AAPL", 100, "old")];
    assert Reusable(before[1], 200);
    assert !Reusable(before[0], 200);
    assert Victim(before, 200) == 1;
    assert FirstValid(before, Some("AAPL"), 200, 0) == Some(0);
    SetKeepsEarlierEntry(before, "AAPL", "new", 200, 0);
  }

  /** Lookups only lose entries as time passes: a symbol that misses at one
      time misses at every later time, as long as the cache is not written. */
  lemma MissPersists(c: Cache, symbol: Option<string>, now: int, later: int)
    requires now <= later
    requires Get(c, symbol, now).None?
    ensures Get(c, symbol, later).None?
  {
    forall i | 0 <= i < Capacity
      ensures !EntryIsValid(c[i], symbol, later)
    {
      assert !EntryIsValid(c[i], symbol, now);
    }
  }

  /** A symbol that no slot can hold (empty, or longer than the symbol
      buffer) is never found. */
  lemma UnstorableSymbolMisses(c: Cache, s: string, now: int)
    requires |s| == 0 || |s| > SymbolMax
    ensures Get(c, Some(s), now).None?
  {
    forall i | 0 <= i < Capacity
      ensures !EntryIsValid(c[i], Some(s), now)
    {
      assert |c[i].symbol| <= SymbolMax;
    }
  }

  /** Every slot of a full, fresh cache is taken, so an insert evicts the
      single entry with the smallest fetch time (the lowest such slot on a
      tie) and leaves the other fifteen entries in place. */
  lemma FullCacheEvictsOldest(c: Cache, s: string, json: string, now: int)
    requires forall j :: 0 <= j < Capacity ==> c[j].symbol != "" && now - c[j].fetchedAt < TtlSeconds
    ensures var r := Set(c, Some(s), Some(json), now);
            exists v :: 0 <= v < Capacity
              && (forall j :: 0 <= j < Capacity ==> c[v].fetchedAt <= c[j].fetchedAt)
              && (forall j :: 0 <= j < v ==> c[j].fetchedAt > c[v].fetchedAt)
              && r[v] == Stamp(s, json, now)
              && (forall j :: 0 <= j < Capacity && j != v ==> r[j] == c[j])
  {
    assert forall j :: 0 <= j < Capacity ==> !Reusable(c[j], now);
    var v := Victim(c, now);
  }
}

=== FILE: json.dfy ===
/**
 An abstract JSON value, standing for the immutable yyjson document the C code
 reads, together with the three accessors it uses. Parsing text into a value
 (`yyjson_read`) is not modelled; operations that parse receive the parser as a
 function parameter. Integers and reals are kept apart because yyjson keeps them
 apart: `yyjson_get_real` answers 0.0 for an integer such as `100`.
 */
module Json {
  import opened Common

  datatype Json =
    | JNull
    | JBool(b: bool)
    | JInt(i: int)
    | JReal(r: real)
    | JStr(s: string)
    | JArr(items: seq<Json>)
    | JObj(members: seq<(string, Json)>)  // in document order; keys may repeat

  /** Index of the first member named `key`, if any. */
  function KeyIndex(members: seq<(string, Json)>, key: string): (r: Option<nat>)
    ensures r.Some? ==> r.value < |members| && members[r.value].0 == key
    ensures r.Some? ==> forall j :: 0 <= j < r.value ==> members[j].0 != key
    ensures r.None? ==> forall j :: 0 <= j < |members| ==> members[j].0 != key
  {
    if |members| == 0 then None
    else if members[0].0 == key then Some(0)
    else match KeyIndex(members[1..], key)
      case None => None
      case Some(k) => Some(k + 1)
  }

  /** `yyjson_obj_get(v, key)`: the value of the first member named `key`;
      NULL when `v` is NULL, not an object, or has no such member. */
  function Get(v: Option<Json>, key: string): (r: Option<Json>)
    ensures r.Some? <==> v.Some? && v.value.JObj? && KeyIndex(v.value.members, key).Some?
    ensures r.Some? ==> r.value == v.value.members[KeyIndex(v.value.members, key).value].1
  {
    if v.Some? && v.value.JObj? then
      match KeyIndex(v.value.members, key)
      case None => None
      case Some(k) => Some(v.value.members[k].1)
    else None
  }

  /** Looking a key up in an object whose first member is `(k, v)`: `v` when
      the key is `k`, otherwise the answer for the remaining members. */
  lemma GetCons(k: string, v: Json, rest: seq<(string, Json)>, key: string)
    ensures Get(Some(JObj([(k, v)] + rest)), key) == if key == k then Some(v) else Get(Some(JObj(rest)), key)
  {
    var members := [(k, v)] + rest;
    assert members[1..] == rest;
  }

  /** `yyjson_get_str`: the text of a string value, NULL for anything else. */
  function GetStr(v: Option<Json>): (r: Option<string>)
    ensures r.Some? <==> v.Some? && v.value.JStr?
    ensures r.Some? ==> r.value == v.value.s
  {
    if v.Some? && v.value.JStr? then Some(v.value.s) else None
  }

  /** `yyjson_get_real`: the value of a real number, 0.0 for anything else
      (including NULL and integers). */
  function GetReal(v: Option<Json>): (r: real)
    ensures v.Some? && v.value.JReal? ==> r == v.value.r
    ensures !(v.Some? && v.value.JReal?) ==> r == 0.0
  {
    if v.Some? && v.value.JReal? then v.value.r else 0.0
  }

  predicate IsArr(v: Option<Json>)
  {
    v.Some? && v.value.JArr?
  }

  predicate IsObj(v: Option<Json>)
  {
    v.Some? && v.value.JObj?
  }

  /** The keys of an object's members, in order. */
  function Keys(members: seq<(string, Json)>): (r: seq<string>)
    ensures |r| == |members|
    ensures forall i :: 0 <= i < |r| ==> r[i] == members[i].0
  {
    seq(|members|, i requires 0 <= i < |members| => members[i].0)
  }
}

=== FILE: market.dfy ===
/**
 The quote record (`struct stock_quote`) shared by the service, the provider
 adapter and the HTTP controller: a symbol in a 16-byte buffer and three
 doubles, modelled as reals.
 */
module Market {
  import opened Common

  /** Characters the `char symbol[16]` buffer keeps before its terminator. */
  const QuoteSymbolMax: nat := 15

  datatype Quote = Quote(symbol: string, price: real, change: real, changePercent: real)

  /** A quote after `memset(q, 0, sizeof q)` and
      `strncpy(q.symbol, symbol, sizeof q.symbol - 1)`. */
  function Zeroed(symbol: string): Quote
  {
    Quote(Truncate(symbol, QuoteSymbolMax), 0.0, 0.0, 0.0)
  }
}

=== FILE: market_controller.dfy ===
/**
 The two pure pieces of the back end's market controller: the quote it sends
 (the service's quote, or a zeroed one carrying the requested symbol, always
 with status 200), and the history envelope that splices `source` and
 `fetchedAt` in front of the history payload.
 */
module MarketController {
  import opened Common
  import opened Floats
  import opened Market
  import HistoryCache
  import MarketService

  /** The values of `enum market_data_source`. */
  const SourceLive: int := 0
  const SourceCache: int := 1
  const SourceDemo: int := 2

  /** The status every response of both controllers carries. */
  const StatusOk: int := 200

  /** Characters the quote response buffer (`char json[512]`) keeps. */
  const QuoteBodyMax: nat := 511

  /** What an envelope carries for a NULL payload. */
  const EmptySeries: string := "\"series\":[]}"

  /** `time_t` cast to `long long`. */
  newtype Int64 = x: int | -0x8000_0000_0000_0000 <= x < 0x8000_0000_0000_0000

  /** `source_to_string`: the three enumerators by name, anything else as
      "demo". */
  function SourceToString(src: int): (s: string)
    ensures s == "live" <==> src == SourceLive
    ensures s == "cache" <==> src == SourceCache
    ensures s == "demo" <==> src != SourceLive && src != SourceCache
  {
    if src == SourceLive then "live"
    else if src == SourceCache then "cache"
    else "demo"
  }

  /** Reading a source name back, the inverse of `SourceToString` on the
      three enumerators. */
  function SourceOfString(s: string): Option<int>
  {
    if s == "live" then Some(SourceLive)
    else if s == "cache" then Some(SourceCache)
    else if s == "demo" then Some(SourceDemo)
    else None
  }

  lemma SourceRoundTrip(src: int)
    ensures SourceOfString(SourceToString(src)) == Some(if src in {SourceLive, SourceCache} then src else SourceDemo)
  {
  }

  // ---------------------------------------------------------------------
  // Quote response
  // ---------------------------------------------------------------------

  /** The quote response: status, the quote printed, and the cache the
      service leaves behind. */
  datatype QuoteResponse = QuoteResponse(status: int, quote: Quote, body: string, cache: HistoryCache.Cache)

  /** The JSON text printed for a quote, cut to the 512-byte buffer; a
      symbol that fits the quote's buffer always arrives whole, right after
      the opening `{"symbol":"`. */
  function QuoteBody(lib: FloatLib, q: Quote): (b: string)
    ensures |b| <= QuoteBodyMax
    ensures |q.symbol| <= QuoteSymbolMax ==>
              |b| >= 12 + |q.symbol| && b[..11] == "{\"symbol\":\"" && b[11..11 + |q.symbol|] == q.symbol
  {
    var full := "{\"symbol\":\"" + q.symbol + "\",\"price\":" + lib.fixed2(q.price)
             + ",\"change\":" + lib.fixed2(q.change)
             + ",\"changePercent\":" + lib.fixed2(q.changePercent) + "}";
    var b := Truncate(full, QuoteBodyMax);
    if |q.symbol| <= QuoteSymbolMax then
      assert b[..12 + |q.symbol|] == full[..12 + |q.symbol|];
      assert full[..12 + |q.symbol|] == "{\"symbol\":\"" + q.symbol + "\"";
      b
    else b
  }

  /** `market_quote_controller`: `stack` is whatever the uninitialised quote
      on the stack holds before the service is called. A failing service
      gives a zeroed quote with the requested symbol; either way the status
      is 200. */
  function QuoteController(lib: FloatLib, symbol: string, stack: Quote, c: HistoryCache.Cache, now: int, fetch: Option<string>): (r: QuoteResponse)
    ensures r.status == StatusOk
    ensures r.quote.symbol == Truncate(symbol, QuoteSymbolMax)
    ensures MarketService.GetQuote(lib, symbol, Some(stack), c, now, fetch).rc != 0 ==> r.quote == Zeroed(symbol)
    ensures var h := MarketService.GetHistory(c, Some(symbol), now, fetch);
            h.json.Some? && MarketService.TwoPriceKeys(h.json.value) ==>
              Some(r.quote) == MarketService.ExtractLatestQuote(lib, h.json.value, Zeroed(symbol))
    ensures r.body == QuoteBody(lib, r.quote)
    ensures r.cache == MarketService.GetHistory(c, Some(symbol), now, fetch).cache
  {
    var s := MarketService.GetQuote(lib, symbol, Some(stack), c, now, fetch);
    var q := if s.rc != 0 then Zeroed(symbol) else s.out.value;
    QuoteResponse(StatusOk, q, QuoteBody(lib, q), s.cache)
  }

  /** The response never depends on the uninitialised stack contents. */
  lemma QuoteIgnoresStack(lib: FloatLib, symbol: string, a: Quote, b: Quote, c: HistoryCache.Cache, now: int, fetch: Option<string>)
    ensures QuoteController(lib, symbol, a, c, now, fetch) == QuoteController(lib, symbol, b, c, now, fetch)
  {
    var h := MarketService.GetHistory(c, Some(symbol), now, fetch);
    if h.json.Some? {
      var z := Zeroed(symbol);
      assert MarketService.GetQuote(lib, symbol, Some(a), c, now, fetch).out
          == MarketService.GetQuote(lib, symbol, Some(b), c, now, fetch).out;
    }
  }

  // ---------------------------------------------------------------------
  // Decimal text of `%lld`
  // ---------------------------------------------------------------------

  function DigitChar(d: nat): char
    requires d < 10
  {
    ('0' as int + d) as char
  }

  predicate AllDigits(s: string)
  {
    forall i :: 0 <= i < |s| ==> '0' <= s[i] <= '9'
  }

  /** The decimal digits of `n`, most significant first, no leading zero. */
  function NatToString(n: nat): (s: string)
    ensures |s| >= 1 && AllDigits(s)
    ensures s[0] != '-'
    decreases n
  {
    if n < 10 then [DigitChar(n)] else NatToString(n / 10) + [DigitChar(n % 10)]
  }

  /** `printf("%lld", n)`. */
  function IntToString(n: int): string
  {
    if n < 0 then "-" + NatToString(-n) else NatToString(n)
  }

  /** The value of a string of decimal digits: the reference the printed
      text is checked against. */
  function DigitsValue(s: string): int
    requires AllDigits(s)
  {
    if |s| == 0 then 0
    else DigitsValue(s[..|s| - 1]) * 10 + (s[|s| - 1] as int - '0' as int)
  }

  /** The value of a `%lld` text: an optional minus sign, then digits. */
  function ParseInt(s: string): Option<int>
  {
    if |s| > 1 && s[0] == '-' && AllDigits(s[1..]) then Some(-DigitsValue(s[1..]))
    else if |s| > 0 && AllDigits(s) then Some(DigitsValue(s))
    else None
  }

  lemma {:induction false} NatToStringValue(n: nat)
    ensures DigitsValue(NatToString(n)) == n
    decreases n
  {
    var s := NatToString(n);
    if n >= 10 {
      NatToStringValue(n / 10);
      assert s[..|s| - 1] == NatToString(n / 10);
      assert s[|s| - 1] as int - '0' as int == n % 10;
    } else {
      assert s[..0] == [];
    }
  }

  /** Printing an integer and reading it back gives the integer. */
  lemma IntToStringRoundTrip(n: int)
    ensures ParseInt(IntToString(n)) == Some(n)
  {
    var s := IntToString(n);
    if n < 0 {
      NatToStringValue(-n);
      assert s[1..] == NatToString(-n);
    } else {
      NatToStringValue(n);
    }
  }

  /** A number below `10^k` has at most `k` digits. */
  lemma {:induction false} NatToStringLength(n: nat, k: nat)
    requires n < Pow10(k)
    ensures |NatToString(n)| <= Max1(k)
    decreases k
  {
    if n >= 10 {
      assert k >= 2;
      NatToStringLength(n / 10, k - 1);
    }
  }

  function Pow10(k: nat): (p: nat)
    ensures p >= 1
  {
    if k == 0 then 1 else 10 * Pow10(k - 1)
  }

  lemma {:induction false} Pow10Add(a: nat, b: nat)
    ensures Pow10(a + b) == Pow10(a) * Pow10(b)
  {
    if a > 0 {
      Pow10Add(a - 1, b);
    }
  }

  function Max1(k: nat): nat
  {
    if k == 0 then 1 else k
  }

  // ---------------------------------------------------------------------
  // History envelope
  // ---------------------------------------------------------------------

  /** The payload after the fields: the history with one leading '{'
      dropped, or an empty series for a NULL history. */
  function Inner(json: Option<string>): (r: string)
    ensures json.None? ==> r == EmptySeries
    ensures json.Some? && |json.value| > 0 && json.value[0] == '{' ==> "{" + r == json.value
    ensures json.Some? && (|json.value| == 0 || json.value[0] != '{') ==> r == json.value
  {
    match json
    case None => EmptySeries
    case Some(s) => if |s| > 0 && s[0] == '{' then s[1..] else s
  }

  /** The fixed fields written before the payload. They never take more
      than 51 characters, and both can be read back: the source name at
      offset 11, the `fetchedAt` digits just before the final comma. */
  function EnvelopeHead(source: int, fetchedAt: Int64): (h: string)
    ensures 31 <= |h| <= 51
    ensures h[..11] == "{\"source\":\"" && h[|h| - 1] == ','
    ensures SourceOfString(h[11..11 + |SourceToString(source)|])
            == Some(if source in {SourceLive, SourceCache} then source else SourceDemo)
    ensures ParseInt(h[25 + |SourceToString(source)|..|h| - 1]) == Some(fetchedAt as int)
  {
    var name := SourceToString(source);
    var num := IntToString(fetchedAt as int);
    IntTextLength(fetchedAt);
    IntToStringRoundTrip(fetchedAt as int);
    SourceRoundTrip(source);
    var pre := "{\"source\":\"";
    var mid := "\",\"fetchedAt\":";
    assert |pre| == 11 && |mid| == 14;
    Spliced(pre, name, mid, num, ",");
    pre + name + mid + num + ","
  }

  /** Where the parts of `pre + a + mid + b + post` sit. */
  lemma Spliced(pre: string, a: string, mid: string, b: string, post: string)
    ensures var h := pre + a + mid + b + post;
            && |h| == |pre| + |a| + |mid| + |b| + |post|
            && h[..|pre|] == pre
            && h[|pre|..|pre| + |a|] == a
            && h[|pre| + |a| + |mid|..|h| - |post|] == b
            && h[|h| - |post|..] == post
  {
  }

  /** The body `market_history_controller` sends: the formatted text cut
      to its `strlen(inner) + 256`-byte buffer. The buffer always fits, so
      nothing is cut: the head followed by the whole payload. */
  function Envelope(source: int, fetchedAt: Int64, json: Option<string>): (e: string)
    ensures e == EnvelopeHead(source, fetchedAt) + Inner(json)
  {
    Truncate(EnvelopeHead(source, fetchedAt) + Inner(json), |Inner(json)| + 255)
  }

  /** `%lld` of a 64-bit value takes at most 20 characters: 19 digits and a
      sign. */
  lemma IntTextLength(fetchedAt: Int64)
    ensures |IntToString(fetchedAt as int)| <= 20
  {
    var n := fetchedAt as int;
    Pow10Add(10, 9);
    Pow10Add(5, 5);
    Pow10Add(5, 4);
    assert Pow10(5) == 100_000 && Pow10(4) == 10_000;
    if n < 0 {
      NatToStringLength(-n, 19);
    } else {
      NatToStringLength(n, 19);
    }
  }

  /** The buffer always fits, so the envelope is the head followed by the
      whole payload: a history object `{...}` gets the two fields spliced
      in front of its members, and a NULL history becomes an empty series. */
  lemma EnvelopeNeverTruncated(source: int, fetchedAt: Int64, json: Option<string>)
    ensures json.Some? && |json.value| > 0 && json.value[0] == '{' ==>
              "{" + Envelope(source, fetchedAt, json)[|EnvelopeHead(source, fetchedAt)|..] == json.value
    ensures json.None? ==> Envelope(source, fetchedAt, json) == EnvelopeHead(source, fetchedAt) + EmptySeries
  {
    var e := Envelope(source, fetchedAt, json);
    assert e[|EnvelopeHead(source, fetchedAt)|..] == Inner(json);
  }
}

=== FILE: market_history_json.dfy ===
/**
 The history augmenter: takes a history document `{symbol, series}` whose
 series is newest-first, computes the metrics of its prices in chronological
 order, and builds a new document with the symbol, the series in its original
 order and a `metrics` object. Series shorter than two points come back as a
 verbatim copy of the input text. Serialising the new document
 (`yyjson_mut_write`) is not modelled: the result is the abstract value.
 */
module MarketHistoryJson {
  import opened Common
  import opened Json
  import opened Floats
  import opened MarketMetrics

  /** What `market_build_history_with_metrics` returns when it returns text:
      a copy of its input, or a newly built document. */
  datatype Augmented = Verbatim(text: string) | Rebuilt(doc: Json)

  /** The parsed root document, or NULL when there is no text or it does not
      parse. */
  function Root(text: Option<string>, parse: string -> Option<Json>): Option<Json>
  {
    if text.None? then None else parse(text.value)
  }

  /** The items of the root's `"series"` member, when it is an array. */
  function SeriesItems(root: Option<Json>): Option<seq<Json>>
  {
    var series := Get(root, "series");
    if IsArr(series) then Some(series.value.items) else None
  }

  /** The price the C code reads from a series item (`yyjson_get_real` of
      its `"price"` member: 0.0 when missing, an integer or not a number). */
  function ItemPrice(item: Json): real
  {
    GetReal(Get(Some(item), "price"))
  }

  /** The metrics input: the item prices read from the last item to the
      first, so that the oldest price comes first. */
  function ChronologicalPrices(items: seq<Json>): (r: seq<real>)
    ensures |r| == |items|
    ensures forall i :: 0 <= i < |items| ==> r[i] == ItemPrice(items[|items| - 1 - i])
  {
    if |items| == 0 then []
    else [ItemPrice(items[|items| - 1])] + ChronologicalPrices(items[..|items| - 1])
  }

  /** One output series item: the date when the input date is a string, and
      always the price, written as a real. */
  function RebuildItem(item: Json): Json
  {
    var date := Get(Some(item), "date");
    JObj((if date.Some? && date.value.JStr? then [("date", date.value)] else [])
         + [("price", JReal(ItemPrice(item)))])
  }

  function MetricsObject(m: Metrics): Json
  {
    JObj([("sharpe", JReal(m.sharpe)),
          ("sortino", JReal(m.sortino)),
          ("maxDrawdown", JReal(m.maxDrawdown)),
          ("cagr", JReal(m.cagr))])
  }

  /** The new root: the symbol when it is a string, then the series, then
      the metrics. */
  function Rebuild(symbol: Option<Json>, items: seq<Json>, m: Metrics): Json
  {
    JObj((if symbol.Some? && symbol.value.JStr? then [("symbol", symbol.value)] else [])
         + [("series", JArr(seq(|items|, i requires 0 <= i < |items| => RebuildItem(items[i]))))]
         + [("metrics", MetricsObject(m))])
  }

  /** `market_build_history_with_metrics`: NULL text, text that does not
      parse, or a root without an array `"series"` give NULL; fewer than two
      items give a verbatim copy; otherwise the rebuilt document. The metrics
      step cannot fail once there are two items, so it never produces NULL. */
  function BuildHistoryWithMetrics(lib: FloatLib, text: Option<string>, parse: string -> Option<Json>): (r: Option<Augmented>)
    ensures r.None? <==> SeriesItems(Root(text, parse)).None?
    ensures r.Some? && |SeriesItems(Root(text, parse)).value| < 2 ==> r.value == Verbatim(text.value)
    ensures r.Some? && |SeriesItems(Root(text, parse)).value| >= 2 ==> r.value.Rebuilt?
  {
    if text.None? then None
    else match parse(text.value)
      case None => None
      case Some(root) =>
        var series := Get(Some(root), "series");
        var symbol := Get(Some(root), "symbol");
        if !IsArr(series) then None
        else
          var items := series.value.items;
          if |items| < 2 then Some(Verbatim(text.value))
          else match Calculate(lib, ChronologicalPrices(items))
            case None => None
            case Some(m) => Some(Rebuilt(Rebuild(symbol, items, m)))
  }

  /** With two or more items the result is the rebuilt document around the
      metrics of the chronological prices. */
  lemma BuiltFromMetrics(lib: FloatLib, text: Option<string>, parse: string -> Option<Json>)
    requires SeriesItems(Root(text, parse)).Some?
    requires |SeriesItems(Root(text, parse)).value| >= 2
    ensures var items := SeriesItems(Root(text, parse)).value;
            BuildHistoryWithMetrics(lib, text, parse)
              == Some(Rebuilt(Rebuild(Get(Root(text, parse), "symbol"), items, MetricsOf(lib, ChronologicalPrices(items)))))
  {
  }

  /** A rebuilt item keeps the item's price, as a real, and keeps its date
      exactly when the date is a string. */
  lemma RebuildItemKeepsFields(item: Json)
    ensures Get(Some(RebuildItem(item)), "price") == Some(JReal(ItemPrice(item)))
    ensures var date := Get(Some(item), "date");
            && (Get(Some(RebuildItem(item)), "date").Some? <==> date.Some? && date.value.JStr?)
            && (Get(Some(RebuildItem(item)), "date").Some? ==> Get(Some(RebuildItem(item)), "date") == date)
  {
    var date := Get(Some(item), "date");
    var price: seq<(string, Json)> := [("price", JReal(ItemPrice(item)))];
    GetCons("price", JReal(ItemPrice(item)), [], "price");
    GetCons("price", JReal(ItemPrice(item)), [], "date");
    GetCons("", JNull, [], "date");
    assert Get(Some(JObj([])), "date").None?;
    if date.Some? && date.value.JStr? {
      assert RebuildItem(item).members == [("date", date.value)] + price;
      GetCons("date", date.value, price, "price");
      GetCons("date", date.value, price, "date");
    } else {
      assert RebuildItem(item).members == price + [];
    }
  }

  /** A rebuilt item's members are exactly "date" then "price" when the date
      is a string, and "price" alone otherwise. */
  lemma RebuildItemLayout(item: Json)
    ensures var date := Get(Some(item), "date");
            Keys(RebuildItem(item).members) == (if date.Some? && date.value.JStr? then ["date", "price"] else ["price"])
  {
  }

  /** The rebuilt root's members are exactly "symbol" (when the symbol is a
      string), "series" and "metrics", in that order. */
  lemma RebuildKeys(symbol: Option<Json>, items: seq<Json>, m: Metrics)
    ensures Keys(Rebuild(symbol, items, m).members)
            == (if symbol.Some? && symbol.value.JStr? then ["symbol", "series", "metrics"] else ["series", "metrics"])
  {
  }

  /** The metrics object holds the four metrics under their four keys, in
      this order and no others. */
  lemma MetricsObjectLayout(m: Metrics)
    ensures Keys(MetricsObject(m).members) == ["sharpe", "sortino", "maxDrawdown", "cagr"]
  {
  }

  lemma MetricsObjectLookups(m: Metrics)
    ensures Get(Some(MetricsObject(m)), "sharpe") == Some(JReal(m.sharpe))
    ensures Get(Some(MetricsObject(m)), "sortino") == Some(JReal(m.sortino))
    ensures Get(Some(MetricsObject(m)), "maxDrawdown") == Some(JReal(m.maxDrawdown))
    ensures Get(Some(MetricsObject(m)), "cagr") == Some(JReal(m.cagr))
  {
    var c: seq<(string, Json)> := [("cagr", JReal(m.cagr))];
    var d := [("maxDrawdown", JReal(m.maxDrawdown))] + c;
    var so := [("sortino", JReal(m.sortino))] + d;
    assert MetricsObject(m).members == [("sharpe", JReal(m.sharpe))] + so;
    GetCons("sharpe", JReal(m.sharpe), so, "sharpe");
    GetCons("sharpe", JReal(m.sharpe), so, "sortino");
    GetCons("sharpe", JReal(m.sharpe), so, "maxDrawdown");
    GetCons("sharpe", JReal(m.sharpe), so, "cagr");
    GetCons("sortino", JReal(m.sortino), d, "sortino");
    GetCons("sortino", JReal(m.sortino), d, "maxDrawdown");
    GetCons("sortino", JReal(m.sortino), d, "cagr");
    GetCons("maxDrawdown", JReal(m.maxDrawdown), c, "maxDrawdown");
    GetCons("maxDrawdown", JReal(m.maxDrawdown), c, "cagr");
    GetCons("cagr", JReal(m.cagr), [], "cagr");
  }

  /** Where the three parts of a rebuilt root can be found again. */
  lemma RebuildLayout(symbol: Option<Json>, items: seq<Json>, m: Metrics)
    ensures var doc := Rebuild(symbol, items, m);
            && (Get(Some(doc), "symbol").Some? <==> symbol.Some? && symbol.value.JStr?)
            && (Get(Some(doc), "symbol").Some? ==> Get(Some(doc), "symbol") == symbol)
            && Get(Some(doc), "series") == Some(JArr(seq(|items|, i requires 0 <= i < |items| => RebuildItem(items[i]))))
            && Get(Some(doc), "metrics") == Some(MetricsObject(m))
  {
    var doc := Rebuild(symbol, items, m);
    var outItems := seq(|items|, i requires 0 <= i < |items| => RebuildItem(items[i]));
    var metrics: seq<(string, Json)> := [("metrics", MetricsObject(m))];
    var tail := [("series", JArr(outItems))] + metrics;
    GetCons("metrics", MetricsObject(m), [], "metrics");
    GetCons("metrics", MetricsObject(m), [], "series");
    GetCons("metrics", MetricsObject(m), [], "symbol");
    assert Get(Some(JObj([])), "series").None?;
    assert Get(Some(JObj([])), "symbol").None?;
    GetCons("series", JArr(outItems), metrics, "series");
    GetCons("series", JArr(outItems), metrics, "metrics");
    GetCons("series", JArr(outItems), metrics, "symbol");
    if symbol.Some? && symbol.value.JStr? {
      assert doc.members == [("symbol", symbol.value)] + tail;
      GetCons("symbol", symbol.value, tail, "symbol");
      GetCons("symbol", symbol.value, tail, "series");
      GetCons("symbol", symbol.value, tail, "metrics");
    } else {
      assert doc.members == tail;
    }
  }

  /** The rebuilt document carries the input's symbol exactly when that
      symbol is a string. */
  lemma RebuiltSymbol(lib: FloatLib, text: Option<string>, parse: string -> Option<Json>)
    requires SeriesItems(Root(text, parse)).Some?
    requires |SeriesItems(Root(text, parse)).value| >= 2
    ensures var symbol := Get(Root(text, parse), "symbol");
            var doc := BuildHistoryWithMetrics(lib, text, parse).value.doc;
            && (Get(Some(doc), "symbol").Some? <==> symbol.Some? && symbol.value.JStr?)
            && (Get(Some(doc), "symbol").Some? ==> Get(Some(doc), "symbol") == symbol)
  {
    var items := SeriesItems(Root(text, parse)).value;
    BuiltFromMetrics(lib, text, parse);
    RebuildLayout(Get(Root(text, parse), "symbol"), items, MetricsOf(lib, ChronologicalPrices(items)));
  }

  /** The rebuilt series has the input's length and order; every item keeps
      its price (as a real) and keeps its date exactly when the date is a
      string. */
  lemma RebuiltSeries(lib: FloatLib, text: Option<string>, parse: string -> Option<Json>)
    requires SeriesItems(Root(text, parse)).Some?
    requires |SeriesItems(Root(text, parse)).value| >= 2
    ensures var items := SeriesItems(Root(text, parse)).value;
            var doc := BuildHistoryWithMetrics(lib, text, parse).value.doc;
            && IsArr(Get(Some(doc), "series"))
            && |Get(Some(doc), "series").value.items| == |items|
            && forall i :: 0 <= i < |items| ==>
                 var out := Get(Some(doc), "series").value.items[i];
                 var date := Get(Some(items[i]), "date");
                 && Get(Some(out), "price") == Some(JReal(ItemPrice(items[i])))
                 && (Get(Some(out), "date").Some? <==> date.Some? && date.value.JStr?)
                 && (Get(Some(out), "date").Some? ==> Get(Some(out), "date") == date)
  {
    var items := SeriesItems(Root(text, parse)).value;
    var m := MetricsOf(lib, ChronologicalPrices(items));
    var doc := Rebuild(Get(Root(text, parse), "symbol"), items, m);
    BuiltFromMetrics(lib, text, parse);
    assert BuildHistoryWithMetrics(lib, text, parse).value.doc == doc;
    RebuildLayout(Get(Root(text, parse), "symbol"), items, m);
    var outItems := seq(|items|, i requires 0 <= i < |items| => RebuildItem(items[i]));
    assert Get(Some(doc), "series") == Some(JArr(outItems));
    forall i | 0 <= i < |items|
      ensures var date := Get(Some(items[i]), "date");
              && Get(Some(outItems[i]), "price") == Some(JReal(ItemPrice(items[i])))
              && (Get(Some(outItems[i]), "date").Some? <==> date.Some? && date.value.JStr?)
              && (Get(Some(outItems[i]), "date").Some? ==> Get(Some(outItems[i]), "date") == date)
    {
      RebuildItemKeepsFields(items[i]);
    }
  }

  /** The rebuilt document always has a metrics object with exactly the keys
      sharpe, sortino, maxDrawdown and cagr, holding the metrics of the
      item prices taken newest-last. */
  lemma RebuiltMetrics(lib: FloatLib, text: Option<string>, parse: string -> Option<Json>)
    requires SeriesItems(Root(text, parse)).Some?
    requires |SeriesItems(Root(text, parse)).value| >= 2
    ensures var items := SeriesItems(Root(text, parse)).value;
            var doc := BuildHistoryWithMetrics(lib, text, parse).value.doc;
            var m := MetricsOf(lib, ChronologicalPrices(items));
            && Get(Some(doc), "metrics") == Some(MetricsObject(m))
            && Keys(Get(Some(doc), "metrics").value.members) == ["sharpe", "sortino", "maxDrawdown", "cagr"]
            && Get(Get(Some(doc), "metrics"), "sharpe") == Some(JReal(m.sharpe))
            && Get(Get(Some(doc), "metrics"), "sortino") == Some(JReal(m.sortino))
            && Get(Get(Some(doc), "metrics"), "maxDrawdown") == Some(JReal(m.maxDrawdown))
            && Get(Get(Some(doc), "metrics"), "cagr") == Some(JReal(m.cagr))
  {
    var items := SeriesItems(Root(text, parse)).value;
    var m := MetricsOf(lib, ChronologicalPrices(items));
    var doc := Rebuild(Get(Root(text, parse), "symbol"), items, m);
    BuiltFromMetrics(lib, text, parse);
    assert BuildHistoryWithMetrics(lib, text, parse).value.doc == doc;
    RebuildLayout(Get(Root(text, parse), "symbol"), items, m);
    MetricsObjectLayout(m);
    MetricsObjectLookups(m);
  }
}

=== FILE: market_metrics.dfy ===
/**
 The metrics engine: Sharpe, Sortino, maximum drawdown and CAGR of a
 chronological price sequence. The aggregates the C loop accumulates are first
 defined one day at a time (`SumRet`, `Peak`, `MaxDrawdown`, ...), the metrics
 are defined from them (`MetricsOf`), and `CalculateMetrics` is the C loop
 itself, proved to compute exactly those values. `sqrt` and `pow` come from the
 uninterpreted `FloatLib`, so only facts that hold whatever they return are
 proved.
 */
module MarketMetrics {
  import opened Common
  import opened Floats

  const TradingDaysPerYear: real := 252.0

  /** `struct market_metrics`. */
  datatype Metrics = Metrics(sharpe: real, sortino: real, maxDrawdown: real, cagr: real)

  /** The simple return of day `i` over day `i - 1`. */
  function Ret(lib: FloatLib, p: seq<real>, i: nat): real
    requires 1 <= i < |p|
  {
    Div(lib, p[i], p[i - 1]) - 1.0
  }

  /** Sum of the returns of days 1 .. n-1. */
  function SumRet(lib: FloatLib, p: seq<real>, n: nat): real
    requires n <= |p|
  {
    if n <= 1 then 0.0 else SumRet(lib, p, n - 1) + Ret(lib, p, n - 1)
  }

  /** Sum of the squared returns of days 1 .. n-1. */
  function SumSqRet(lib: FloatLib, p: seq<real>, n: nat): real
    requires n <= |p|
  {
    if n <= 1 then 0.0 else SumSqRet(lib, p, n - 1) + Ret(lib, p, n - 1) * Ret(lib, p, n - 1)
  }

  /** Sum of the squares of the negative returns of days 1 .. n-1. */
  function DownSumSq(lib: FloatLib, p: seq<real>, n: nat): real
    requires n <= |p|
  {
    if n <= 1 then 0.0
    else
      var r := Ret(lib, p, n - 1);
      DownSumSq(lib, p, n - 1) + (if r < 0.0 then r * r else 0.0)
  }

  /** Number of negative returns among days 1 .. n-1. */
  function DownCount(lib: FloatLib, p: seq<real>, n: nat): nat
    requires n <= |p|
  {
    if n <= 1 then 0
    else DownCount(lib, p, n - 1) + (if Ret(lib, p, n - 1) < 0.0 then 1 else 0)
  }

  /** The running peak after day `i`. */
  function Peak(p: seq<real>, i: nat): real
    requires i < |p|
  {
    if i == 0 then p[0]
    else if p[i] > Peak(p, i - 1) then p[i]
    else Peak(p, i - 1)
  }

  /** The drawdown of day `i` from the running peak. */
  function Drawdown(lib: FloatLib, p: seq<real>, i: nat): real
    requires i < |p|
  {
    Div(lib, p[i] - Peak(p, i), Peak(p, i))
  }

  /** The running maximum drawdown after days 1 .. n-1: the most negative
      drawdown seen, and 0 when none is negative. */
  function MaxDrawdown(lib: FloatLib, p: seq<real>, n: nat): (r: real)
    requires 1 <= n <= |p|
    ensures r <= 0.0
  {
    if n == 1 then 0.0
    else
      var d := Drawdown(lib, p, n - 1);
      var m := MaxDrawdown(lib, p, n - 1);
      if d < m then d else m
  }

  /** The maximum drawdown is the least of 0 and the drawdowns of days
      1 .. n-1. */
  lemma {:induction false} MaxDrawdownIsLeast(lib: FloatLib, p: seq<real>, n: nat)
    requires 1 <= n <= |p|
    ensures forall i :: 1 <= i < n ==> MaxDrawdown(lib, p, n) <= Drawdown(lib, p, i)
    ensures MaxDrawdown(lib, p, n) == 0.0 || exists i :: 1 <= i < n && MaxDrawdown(lib, p, n) == Drawdown(lib, p, i)
  {
    if n > 1 {
      MaxDrawdownIsLeast(lib, p, n - 1);
      var m := MaxDrawdown(lib, p, n - 1);
      if Drawdown(lib, p, n - 1) >= m && m != 0.0 {
        var i :| 1 <= i < n - 1 && m == Drawdown(lib, p, i);
        assert 1 <= i < n && MaxDrawdown(lib, p, n) == Drawdown(lib, p, i);
      }
    }
  }

  /** Mean of the `|p| - 1` returns. */
  function Mean(lib: FloatLib, p: seq<real>): real
    requires |p| >= 2
  {
    SumRet(lib, p, |p|) / (|p| - 1) as real
  }

  /** Population variance of the returns: mean of squares minus squared mean. */
  function Variance(lib: FloatLib, p: seq<real>): real
    requires |p| >= 2
  {
    SumSqRet(lib, p, |p|) / (|p| - 1) as real - Mean(lib, p) * Mean(lib, p)
  }

  /** The metrics of a sequence of at least two prices, assembled from the
      aggregates above the way `market_calculate_metrics` assembles them. */
  function MetricsOf(lib: FloatLib, p: seq<real>): (m: Metrics)
    requires |p| >= 2
    ensures m.maxDrawdown <= 0.0
    ensures Variance(lib, p) <= 0.0 ==> m.sharpe == 0.0
    ensures DownCount(lib, p, |p|) == 0 ==> m.sortino == 0.0
  {
    var n := |p|;
    var mean := Mean(lib, p);
    var variance := Variance(lib, p);
    var stddev := if variance > 0.0 then lib.sqrt(variance) else 0.0;
    var downCount := DownCount(lib, p, n);
    var downStddev := if downCount > 0 then lib.sqrt(DownSumSq(lib, p, n) / downCount as real) else 0.0;
    var years := n as real / TradingDaysPerYear;
    Metrics(
      if stddev > 0.0 then (mean / stddev) * lib.sqrt(TradingDaysPerYear) else 0.0,
      if downStddev > 0.0 then (mean / downStddev) * lib.sqrt(TradingDaysPerYear) else 0.0,
      MaxDrawdown(lib, p, n),
      if years > 0.0 then lib.pow(Div(lib, p[n - 1], p[0]), 1.0 / years) - 1.0 else 0.0)
  }

  /** The outcome of `market_calculate_metrics` on a non-NULL price array
      and output: no metrics for fewer than two prices. */
  function Calculate(lib: FloatLib, p: seq<real>): (r: Option<Metrics>)
    ensures r.Some? <==> |p| >= 2
    ensures r.Some? ==> r.value.maxDrawdown <= 0.0
  {
    if |p| < 2 then None else Some(MetricsOf(lib, p))
  }

  /** `market_calculate_metrics`: NULL prices, NULL output or fewer than two
      prices answer -1 and write nothing; otherwise one pass over the prices
      accumulates the return sums, the downside sums, the running peak and
      the maximum drawdown, and the answer is 0 with the metrics written. */
  method CalculateMetrics(lib: FloatLib, prices: Option<seq<real>>, hasOut: bool)
    returns (rc: int, out: Option<Metrics>)
    ensures rc == 0 || rc == -1
    ensures rc == -1 <==> prices.None? || !hasOut || |prices.value| < 2
    ensures rc == -1 ==> out.None?
    ensures rc == 0 ==> out == Calculate(lib, prices.value)
  {
    if prices.None? || !hasOut || |prices.value| < 2 {
      return -1, None;
    }
    var p := prices.value;
    var count := |p|;

    var returnsSum := 0.0;
    var returnsSqSum := 0.0;
    var downsideSqSum := 0.0;
    var downsideCount: nat := 0;
    var peak := p[0];
    var maxDrawdown := 0.0;

    var i := 1;
    while i < count
      invariant 1 <= i <= count
      invariant returnsSum == SumRet(lib, p, i)
      invariant returnsSqSum == SumSqRet(lib, p, i)
      invariant downsideSqSum == DownSumSq(lib, p, i)
      invariant downsideCount == DownCount(lib, p, i)
      invariant peak == Peak(p, i - 1)
      invariant maxDrawdown == MaxDrawdown(lib, p, i)
    {
      var r := Div(lib, p[i], p[i - 1]) - 1.0;
      assert r == Ret(lib, p, i);
      returnsSum := returnsSum + r;
      assert returnsSum == SumRet(lib, p, i + 1);
      returnsSqSum := returnsSqSum + r * r;
      assert returnsSqSum == SumSqRet(lib, p, i + 1);
      if r < 0.0 {
        downsideSqSum := downsideSqSum + r * r;
        downsideCount := downsideCount + 1;
      }
      assert downsideSqSum == DownSumSq(lib, p, i + 1);
      assert downsideCount == DownCount(lib, p, i + 1);
      if p[i] > peak {
        peak := p[i];
      }
      assert peak == Peak(p, i);
      var drawdown := Div(lib, p[i] - peak, peak);
      assert drawdown == Drawdown(lib, p, i);
      if drawdown < maxDrawdown {
        maxDrawdown := drawdown;
      }
      assert maxDrawdown == MaxDrawdown(lib, p, i + 1);
      i := i + 1;
    }

    var mean := returnsSum / (count - 1) as real;
    assert mean == Mean(lib, p);
    var variance := returnsSqSum / (count - 1) as real - mean * mean;
    assert variance == Variance(lib, p);
    var stddev := if variance > 0.0 then lib.sqrt(variance) else 0.0;
    var downsideStddev := 0.0;
    if downsideCount > 0 {
      downsideStddev := lib.sqrt(downsideSqSum / downsideCount as real);
    }
    var sharpe := if stddev > 0.0 then (mean / stddev) * lib.sqrt(TradingDaysPerYear) else 0.0;
    var sortino := if downsideStddev > 0.0 then (mean / downsideStddev) * lib.sqrt(TradingDaysPerYear) else 0.0;
    var years := count as real / TradingDaysPerYear;
    var cagr := if years > 0.0 then lib.pow(Div(lib, p[count - 1], p[0]), 1.0 / years) - 1.0 else 0.0;
    assert Metrics(sharpe, sortino, maxDrawdown, cagr) == MetricsOf(lib, p);
    return 0, Some(Metrics(sharpe, sortino, maxDrawdown, cagr));
  }

  predicate AllPositive(p: seq<real>)
  {
    forall i :: 0 <= i < |p| ==> p[i] > 0.0
  }

  predicate NonDecreasing(p: seq<real>)
  {
    forall i :: 1 <= i < |p| ==> p[i - 1] <= p[i]
  }

  /** After day `i` the peak is the largest of the prices of days 0 .. i. */
  lemma {:induction false} PeakIsRunningMax(p: seq<real>, i: nat)
    requires i < |p|
    ensures forall j :: 0 <= j <= i ==> p[j] <= Peak(p, i)
    ensures exists j :: 0 <= j <= i && Peak(p, i) == p[j]
  {
    if i == 0 {
      assert 0 <= 0 <= i && Peak(p, i) == p[0];
    } else {
      PeakIsRunningMax(p, i - 1);
      var j :| 0 <= j <= i - 1 && Peak(p, i - 1) == p[j];
      if p[i] > Peak(p, i - 1) {
        assert 0 <= i <= i && Peak(p, i) == p[i];
      } else {
        assert 0 <= j <= i && Peak(p, i) == p[j];
      }
    }
  }

  /** A fall from a positive peak to a positive price loses less than 100%. */
  lemma LossAboveMinusOne(price: real, peak: real)
    requires price > 0.0 && peak > 0.0
    ensures (price - peak) / peak > -1.0
  {
    var d := (price - peak) / peak;
    assert d * peak == price - peak;
    assert (d + 1.0) * peak == price;
    FactorSign(d + 1.0, peak);
  }

  /** A product with a positive factor has the sign of the other factor. */
  lemma FactorSign(x: real, y: real)
    requires y > 0.0
    ensures x * y > 0.0 <==> x > 0.0
    ensures x * y >= 0.0 <==> x >= 0.0
  {
    if x < 0.0 {
      assert x * y < 0.0;
    } else if x == 0.0 {
      assert x * y == 0.0;
    }
  }

  /** With positive prices, no drawdown reaches -100%. */
  lemma MaxDrawdownAboveMinusOne(lib: FloatLib, p: seq<real>)
    requires |p| >= 1 && AllPositive(p)
    ensures MaxDrawdown(lib, p, |p|) > -1.0
  {
    var r := MaxDrawdown(lib, p, |p|);
    MaxDrawdownIsLeast(lib, p, |p|);
    if r != 0.0 {
      var i :| 1 <= i < |p| && r == Drawdown(lib, p, i);
      PeakIsRunningMax(p, i);
      var peak := Peak(p, i);
      assert peak > 0.0;
      assert Drawdown(lib, p, i) == (p[i] - peak) / peak;
      LossAboveMinusOne(p[i], peak);
    }
  }

  /** On a non-decreasing sequence every price is its own running peak. */
  lemma {:induction false} NonDecreasingPeak(p: seq<real>, i: nat)
    requires i < |p| && NonDecreasing(p)
    ensures Peak(p, i) == p[i]
  {
    if i > 0 {
      NonDecreasingPeak(p, i - 1);
    }
  }

  /** With positive prices the maximum drawdown is 0 exactly when the
      sequence never falls. */
  lemma MaxDrawdownZeroIffNonDecreasing(lib: FloatLib, p: seq<real>)
    requires |p| >= 1 && AllPositive(p)
    ensures MaxDrawdown(lib, p, |p|) == 0.0 <==> NonDecreasing(p)
  {
    var r := MaxDrawdown(lib, p, |p|);
    MaxDrawdownIsLeast(lib, p, |p|);
    if NonDecreasing(p) {
      forall i | 1 <= i < |p|
        ensures Drawdown(lib, p, i) == 0.0
      {
        NonDecreasingPeak(p, i);
      }
      assert r == 0.0;
    }
    if r == 0.0 {
      forall i | 1 <= i < |p|
        ensures p[i] == Peak(p, i)
      {
        PeakIsRunningMax(p, i);
        var peak := Peak(p, i);
        assert peak > 0.0;
        assert 0.0 <= Drawdown(lib, p, i) == (p[i] - peak) / peak;
        assert p[i] - peak >= 0.0;
      }
      forall i | 1 <= i < |p|
        ensures p[i - 1] <= p[i]
      {
        PeakIsRunningMax(p, i - 1);
        assert p[i - 1] <= Peak(p, i - 1) <= Peak(p, i);
      }
    }
  }

  /** When every return equals `c` the sums grow by `c` and `c * c` a day. */
  lemma {:induction false} ConstantReturnSums(lib: FloatLib, p: seq<real>, c: real, n: nat)
    requires 1 <= n <= |p|
    requires forall i :: 1 <= i < |p| ==> Ret(lib, p, i) == c
    ensures SumRet(lib, p, n) == (n - 1) as real * c
    ensures SumSqRet(lib, p, n) == (n - 1) as real * (c * c)
  {
    if n > 1 {
      ConstantReturnSums(lib, p, c, n - 1);
    }
  }

  /** Equal returns have mean equal to that return and zero variance, so the
      Sharpe ratio is 0. */
  lemma EqualReturnsZeroSharpe(lib: FloatLib, p: seq<real>, c: real)
    requires |p| >= 2
    requires forall i :: 1 <= i < |p| ==> Ret(lib, p, i) == c
    ensures Mean(lib, p) == c
    ensures Variance(lib, p) == 0.0
    ensures MetricsOf(lib, p).sharpe == 0.0
  {
    ConstantReturnSums(lib, p, c, |p|);
    var k := (|p| - 1) as real;
    assert SumRet(lib, p, |p|) / k == c;
    assert SumSqRet(lib, p, |p|) / k == c * c;
  }

  /** The downside count is 0 exactly when no return so far is negative. */
  lemma {:induction false} DownCountZeroIff(lib: FloatLib, p: seq<real>, n: nat)
    requires 1 <= n <= |p|
    ensures DownCount(lib, p, n) == 0 <==> forall i :: 1 <= i < n ==> Ret(lib, p, i) >= 0.0
  {
    if n > 1 {
      DownCountZeroIff(lib, p, n - 1);
    }
  }

  /** A sequence with no losing day has a Sortino ratio of 0. */
  lemma NoLossZeroSortino(lib: FloatLib, p: seq<real>)
    requires |p| >= 2
    requires forall i :: 1 <= i < |p| ==> Ret(lib, p, i) >= 0.0
    ensures MetricsOf(lib, p).sortino == 0.0
  {
    DownCountZeroIff(lib, p, |p|);
  }

  /** One step of the Cauchy–Schwarz induction, on plain reals. */
  lemma CauchyStep(k: real, q: real, s: real, r: real)
    requires k >= 0.0 && k * q >= s * s
    requires k == 0.0 ==> s == 0.0 && q == 0.0
    ensures (k + 1.0) * (q + r * r) >= (s + r) * (s + r)
  {
    var t := q + k * r * r - 2.0 * s * r;
    assert (k + 1.0) * (q + r * r) - (s + r) * (s + r) == (k * q - s * s) + t;
    if k > 0.0 {
      assert k * t == k * q + k * k * r * r - 2.0 * k * s * r;
      assert (s - k * r) * (s - k * r) == s * s + k * k * r * r - 2.0 * k * s * r;
      var d := s - k * r;
      assert d * d >= 0.0;
      assert t * k >= 0.0;
      FactorSign(t, k);
    }
  }

  /** Cauchy–Schwarz for the returns: (n-1) * sum of squares >= (sum)^2. */
  lemma {:induction false} SumSquaresBound(lib: FloatLib, p: seq<real>, n: nat)
    requires 1 <= n <= |p|
    ensures (n - 1) as real * SumSqRet(lib, p, n) >= SumRet(lib, p, n) * SumRet(lib, p, n)
  {
    if n > 1 {
      SumSquaresBound(lib, p, n - 1);
      CauchyStep((n - 2) as real, SumSqRet(lib, p, n - 1), SumRet(lib, p, n - 1), Ret(lib, p, n - 1));
    }
  }

  /** Mean of squares minus squared mean is non-negative under
      Cauchy–Schwarz, stated with the two quotients named `a = q / k` and
      `m = s / k`. */
  lemma ScaledSpread(k: real, q: real, s: real, a: real, m: real)
    requires k > 0.0 && k * q >= s * s
    requires a * k == q && m * k == s
    ensures a - m * m >= 0.0
  {
    assert (q - m * s) * k == k * q - s * s;
    FactorSign(q - m * s, k);
    assert (a - m * m) * k == q - m * s;
    FactorSign(a - m * m, k);
  }

  /** Computed exactly, the population variance is never negative: the
      `variance > 0` test only turns away a variance of exactly 0. */
  lemma VarianceNonNegative(lib: FloatLib, p: seq<real>)
    requires |p| >= 2
    ensures Variance(lib, p) >= 0.0
  {
    SumSquaresBound(lib, p, |p|);
    var k := (|p| - 1) as real;
    ScaledSpread(k, SumSqRet(lib, p, |p|), SumRet(lib, p, |p|), SumSqRet(lib, p, |p|) / k, Mean(lib, p));
  }

  /** The CAGR exponent divides 252 by the number of prices, not by the
      number of returns: `years = count / 252` is always positive here, so the
      0 branch is never taken. */
  lemma CagrExponentUsesCount(lib: FloatLib, p: seq<real>)
    requires |p| >= 2
    ensures MetricsOf(lib, p).cagr == lib.pow(Div(lib, p[|p| - 1], p[0]), TradingDaysPerYear / |p| as real) - 1.0
  {
    var years := |p| as real / TradingDaysPerYear;
    assert years > 0.0;
    assert 1.0 / years == TradingDaysPerYear / |p| as real;
  }

  /** The chronological prices 100, 110, 99, 121 have returns 0.1, -0.1 and
      2/9, mean 2/27, one losing day, and a maximum drawdown of -10%. */
  lemma WorkedExample(lib: FloatLib)
    ensures var p := [100.0, 110.0, 99.0, 121.0];
            && Ret(lib, p, 1) == 0.1
            && Ret(lib, p, 2) == -0.1
            && Ret(lib, p, 3) == 2.0 / 9.0
            && Mean(lib, p) == 2.0 / 27.0
            && DownCount(lib, p, 4) == 1
            && MetricsOf(lib, p).maxDrawdown == -0.1
  {
    var p := [100.0, 110.0, 99.0, 121.0];
    assert Ret(lib, p, 1) == 0.1;
    assert Ret(lib, p, 2) == -0.1;
    assert Ret(lib, p, 3) == 2.0 / 9.0;
    assert SumRet(lib, p, 2) == 0.1;
    assert SumRet(lib, p, 3) == 0.0;
    assert SumRet(lib, p, 4) == 2.0 / 9.0;
    assert DownCount(lib, p, 2) == 0;
    assert DownCount(lib, p, 3) == 1;
    assert Peak(p, 1) == 110.0;
    assert Peak(p, 2) == 110.0;
    assert Peak(p, 3) == 121.0;
    assert Drawdown(lib, p, 1) == 0.0;
    assert Drawdown(lib, p, 2) == -0.1;
    assert Drawdown(lib, p, 3) == 0.0;
    assert MaxDrawdown(lib, p, 2) == 0.0;
    assert MaxDrawdown(lib, p, 3) == -0.1;
  }
}

=== FILE: market_service.dfy ===
/**
 The market service of the C back end: history lookups that fall back from the
 cache to a live fetch, to a second (stale) cache read and finally to a bundled
 demo document, and the quote derived from a history text by searching for its
 first two `"price":` keys.

 The live fetch is a parameter: `fetch` is the text
 `alpha_vantage_get_daily_history_json` would write on success, or `None` when
 it fails. The clock is one `now` for the whole request.
 */
module MarketService {
  import opened Common
  import opened Floats
  import opened Market
  import HistoryCache

  /** The key `extract_latest_quote` searches for; its number starts right
      after it. */
  const PriceKey: string := "\"price\":"

  /** The bundled demo history, split where its `"price":` keys begin. */
  const DemoHistory: string :=
    "{\"symbol\":\"AAPL\"," + "\"series\":[" + "{\"date\":\"2026-01-27\","
    + PriceKey + "252.10}," + "{\"date\":\"2026-01-28\","
    + PriceKey + "258.27}," + "{\"date\":\"2026-01-29\","
    + PriceKey + "256.44}," + "{\"date\":\"2026-01-30\","
    + PriceKey + "260.05}," + "{\"date\":\"2026-02-02\","
    + PriceKey + "259.40}" + "]}"

  // ---------------------------------------------------------------------
  // Quote derivation
  // ---------------------------------------------------------------------

  /** `k` is the first match of the price key at or after `from`. */
  predicate FirstMatchFrom(text: string, from: nat, k: nat)
  {
    && from <= k
    && OccursAt(text, PriceKey, k)
    && forall m :: from <= m < k ==> !OccursAt(text, PriceKey, m)
  }

  /** The text holds two price keys that do not overlap. */
  ghost predicate TwoPriceKeys(text: string)
  {
    exists i: nat, j: nat :: i + |PriceKey| <= j && OccursAt(text, PriceKey, i) && OccursAt(text, PriceKey, j)
  }

  /** The number `atof` reads right after a price key matched at `k`. */
  function PriceAfter(lib: FloatLib, text: string, k: nat): real
    requires OccursAt(text, PriceKey, k)
  {
    lib.atof(text[k + |PriceKey|..])
  }

  /** `q` with the price fields `extract_latest_quote` writes from a latest
      and a previous price; nothing guards a zero previous price. */
  function WithPrices(lib: FloatLib, q: Quote, latest: real, previous: real): Quote
  {
    q.(price := latest, change := latest - previous,
       changePercent := Div(lib, latest - previous, previous) * 100.0)
  }

  /** `extract_latest_quote`: `None` is the -1 return, which leaves `q` as it
      was. It succeeds exactly when the text holds two non-overlapping price
      keys, and it changes only the price fields. */
  function ExtractLatestQuote(lib: FloatLib, text: string, q: Quote): (r: Option<Quote>)
    ensures r.Some? <==> TwoPriceKeys(text)
    ensures r.Some? ==> r.value.symbol == q.symbol
  {
    match Find(text, PriceKey, 0)
    case None => None
    case Some(p) =>
      match Find(text, PriceKey, p + |PriceKey|)
      case None =>
        assert !TwoPriceKeys(text) by {
          forall i: nat, j: nat | i + |PriceKey| <= j && OccursAt(text, PriceKey, i)
            ensures !OccursAt(text, PriceKey, j)
          {
            assert p <= i;
          }
        }
        None
      case Some(p2) =>
        assert OccursAt(text, PriceKey, p) && OccursAt(text, PriceKey, p2);
        Some(WithPrices(lib, q, PriceAfter(lib, text, p), PriceAfter(lib, text, p2)))
  }

  /** On success the latest price is the number after the first key and the
      previous price the number after the first key that starts at least
      eight characters later. */
  lemma ExtractedPrices(lib: FloatLib, text: string, q: Quote, i: nat, j: nat)
    requires FirstMatchFrom(text, 0, i)
    requires FirstMatchFrom(text, i + |PriceKey|, j)
    ensures ExtractLatestQuote(lib, text, q) == Some(WithPrices(lib, q, PriceAfter(lib, text, i), PriceAfter(lib, text, j)))
  {
    FindAt(text, PriceKey, 0, i);
    FindAt(text, PriceKey, i + |PriceKey|, j);
  }

  /** The demo history's first price key is at 48 and its number reads 252.10. */
  lemma DemoFirstKey()
    ensures FirstMatchFrom(DemoHistory, 0, 48)
    ensures DemoHistory[56..62] == "252.10"
  {
    var a := "{\"symbol\":\"AAPL\"," + "\"series\":[" + "{\"date\":\"2026-01-27\",";
    assert 'p' !in a;
    FindAtJoin(a, PriceKey, PriceKey, 0);
    assert a + PriceKey == DemoHistory[..56];
    assert DemoHistory[..56] + DemoHistory[56..] == DemoHistory;
    FindExtend(DemoHistory[..56], DemoHistory[56..], PriceKey, 0);
  }

  /** The next price key at or after 56 is at 85 and its number reads 258.27. */
  lemma DemoSecondKey()
    ensures FirstMatchFrom(DemoHistory, 56, 85)
    ensures DemoHistory[93..99] == "258.27"
  {
    var b := "252.10}," + "{\"date\":\"2026-01-28\",";
    assert 'p' !in b;
    var x := DemoHistory[..85];
    assert x[56..] == b;
    var k := DemoHistory[85..93];
    assert k == PriceKey;
    FindAtJoin(x, k, PriceKey, 56);
    assert x + k == DemoHistory[..93];
    assert DemoHistory[..93] + DemoHistory[93..] == DemoHistory;
    FindExtend(DemoHistory[..93], DemoHistory[93..], PriceKey, 56);
  }

  /** On the demo history the quote takes the first entry in document order
      (252.10) as the latest price and the second (258.27) as the previous. */
  lemma DemoQuotePrices(lib: FloatLib, q: Quote)
    ensures DemoHistory[56..62] == "252.10" && DemoHistory[93..99] == "258.27"
    ensures ExtractLatestQuote(lib, DemoHistory, q)
            == Some(WithPrices(lib, q, lib.atof(DemoHistory[56..]), lib.atof(DemoHistory[93..])))
  {
    DemoFirstKey();
    DemoSecondKey();
    ExtractedPrices(lib, DemoHistory, q, 48, 85);
  }

  // ---------------------------------------------------------------------
  // History fallback chain
  // ---------------------------------------------------------------------

  /** What `market_service_get_history` answers: the returned pointer
      (`None` is NULL), the cache afterwards, and whether the live fetch was
      attempted. */
  datatype History = History(json: Option<string>, cache: HistoryCache.Cache, fetched: bool)

  /** `market_service_get_history`. The provider fails a NULL symbol before
      any request, so a NULL symbol never yields a live payload. */
  function GetHistory(c: HistoryCache.Cache, symbol: Option<string>, now: int, fetch: Option<string>): (r: History)
    ensures HistoryCache.Get(c, symbol, now).Some? ==>
              r == History(HistoryCache.Get(c, symbol, now), c, false)
    ensures HistoryCache.Get(c, symbol, now).None? ==> r.fetched
    ensures HistoryCache.Get(c, symbol, now).None? && (symbol.None? || fetch.None?) ==>
              r == History(Some(DemoHistory), c, true)
    ensures HistoryCache.Get(c, symbol, now).None? && symbol.Some? && fetch.Some? ==>
              && r.cache == HistoryCache.Set(c, symbol, fetch, now)
              && r.json == HistoryCache.Get(r.cache, symbol, now)
  {
    match HistoryCache.Get(c, symbol, now)
    case Some(cached) => History(Some(cached), c, false)
    case None =>
      var live := if symbol.None? then None else fetch;
      if live.Some? then
        var stored := HistoryCache.Set(c, symbol, live, now);
        History(HistoryCache.Get(stored, symbol, now), stored, true)
      else
        var stale := HistoryCache.Get(c, symbol, now);
        History(if stale.Some? then stale else Some(DemoHistory), c, true)
  }

  /** A fetched payload for a symbol that fits the cache is stored and read
      back, so the answer is the payload cut to the cache's buffer. */
  lemma LivePayloadIsReadBack(c: HistoryCache.Cache, s: string, now: int, body: string)
    requires 1 <= |s| <= HistoryCache.SymbolMax
    requires HistoryCache.Get(c, Some(s), now).None?
    ensures GetHistory(c, Some(s), now, Some(body)).json == Some(Truncate(body, HistoryCache.PayloadMax))
  {
    HistoryCache.SetThenGet(c, s, body, now);
  }

  /** The chain answers NULL exactly when a live payload arrives for a
      symbol the cache cannot hold (empty or longer than 15 characters), so
      that its read-back misses; in every other case there is an answer. */
  lemma HistoryNullIff(c: HistoryCache.Cache, symbol: Option<string>, now: int, fetch: Option<string>)
    ensures GetHistory(c, symbol, now, fetch).json.None? <==>
              symbol.Some? && fetch.Some? && (|symbol.value| == 0 || |symbol.value| > HistoryCache.SymbolMax)
  {
    var r := GetHistory(c, symbol, now, fetch);
    if symbol.Some? {
      var s := symbol.value;
      if |s| == 0 || |s| > HistoryCache.SymbolMax {
        HistoryCache.UnstorableSymbolMisses(c, s, now);
        if fetch.Some? {
          HistoryCache.UnstorableSymbolMisses(r.cache, s, now);
        }
      } else if HistoryCache.Get(c, symbol, now).None? && fetch.Some? {
        LivePayloadIsReadBack(c, s, now, fetch.value);
      }
    }
  }

  // ---------------------------------------------------------------------
  // Quote service
  // ---------------------------------------------------------------------

  /** What `market_service_get_quote` answers: its return code, the quote
      `out` points to afterwards (`None` for a NULL `out`) and the cache. */
  datatype QuoteResult = QuoteResult(rc: int, out: Option<Quote>, cache: HistoryCache.Cache)

  /** `market_service_get_quote`. A NULL `out` is rejected before any
      lookup; a NULL history leaves `out` as it was; otherwise `out` is
      zeroed, given the symbol cut to 15 characters, and filled by
      `extract_latest_quote`, whose failure is the only other -1. */
  function GetQuote(lib: FloatLib, symbol: string, out: Option<Quote>, c: HistoryCache.Cache, now: int, fetch: Option<string>): (r: QuoteResult)
    ensures r.rc == 0 || r.rc == -1
    ensures out.None? ==> r == QuoteResult(-1, None, c)
    ensures out.Some? ==> r.cache == GetHistory(c, Some(symbol), now, fetch).cache
    ensures out.Some? && GetHistory(c, Some(symbol), now, fetch).json.None? ==> r.rc == -1 && r.out == out
    ensures out.Some? && GetHistory(c, Some(symbol), now, fetch).json.Some? ==>
              && r.out.Some?
              && r.out.value.symbol == Truncate(symbol, QuoteSymbolMax)
              && (r.rc == 0 <==> TwoPriceKeys(GetHistory(c, Some(symbol), now, fetch).json.value))
              && (r.rc == -1 ==> r.out == Some(Zeroed(symbol)))
              && (r.rc == 0 ==> r.out == ExtractLatestQuote(lib, GetHistory(c, Some(symbol), now, fetch).json.value, Zeroed(symbol)))
  {
    if out.None? then QuoteResult(-1, None, c)
    else
      var h := GetHistory(c, Some(symbol), now, fetch);
      if h.json.None? then QuoteResult(-1, out, h.cache)
      else
        match ExtractLatestQuote(lib, h.json.value, Zeroed(symbol))
        case None => QuoteResult(-1, Some(Zeroed(symbol)), h.cache)
        case Some(q) => QuoteResult(0, Some(q), h.cache)
  }

  /** With nothing cached and the fetch failing, the quote comes from the
      demo history: 252.10 as the latest price, 258.27 as the previous. */
  lemma DemoQuote(lib: FloatLib, symbol: string, q: Quote, c: HistoryCache.Cache, now: int)
    requires HistoryCache.Get(c, Some(symbol), now).None?
    ensures DemoHistory[56..62] == "252.10" && DemoHistory[93..99] == "258.27"
    ensures GetQuote(lib, symbol, Some(q), c, now, None)
            == QuoteResult(0, Some(WithPrices(lib, Zeroed(symbol), lib.atof(DemoHistory[56..]), lib.atof(DemoHistory[93..]))), c)
  {
    DemoQuotePrices(lib, Zeroed(symbol));
  }
}
